=== FILE: README.md ===
# Habit tracker save engine, in Dafny

This project models the persisted game state of a habit-tracking game and the
route handlers that carry its business rules.

- **The save store** (`src/lib/server/save-manager.ts`) is the class
  `SaveManager.SaveStore`. It holds the save file and a backup directory.
  - Loading creates a default save when the file is missing or unreadable.
  - Writing refreshes `exportedAt` and can rotate the backups. Rotation
    keeps at most three `save-*.json` files, deleting the first in sort
    order.
  - Importing first applies a shallow shape check to an untrusted JSON
    document.
  - Resetting backs up the current save, then writes the default.
- **The idle reward engine** (`src/lib/server/idle-calculator.ts`):
  - `CalculateIdleRewards` is the loop over the purchased upgrades. It is
    proved equal to the function `IdleRewards`.
  - The debounce, the cap, the effect sums, the floors and the streak bonus
    are all proved about `IdleRewards`.
  - `formatIdleTime` is modelled too.
- **The habit rules** (`src/routes/habits/+page.server.ts`):
  - Create clamps the reward.
  - Complete is a calendar-day streak machine.
  - Delete keeps the habit's completion history.
- **The home page's second `complete`** (`src/routes/+page.server.ts`)
  compares midnights. It is proved to leave exactly the save the habits
  page leaves.
- **Shop purchase** (`src/routes/shop/+page.server.ts`).
- **Idle settlement** on every page load (`src/routes/+layout.server.ts`).
- **The statistics page** (`src/routes/stats/+page.server.ts`) and **the
  settings page** (`src/routes/settings/+page.server.ts`): the summary, the
  import guards and the reset guard.

Shared conventions:

- **Time.** Timestamps are integer milliseconds. A calendar day is
  `t / 86400000`. The clock, the fresh ids, the upgrade catalog and the
  settings are parameters.
- **Actions.** Every route action that writes is a method on the store. It
  loads, applies a step and writes. Its contract uses `SaveStore.Settled`
  to tie the reply and the new store state to a pure step function
  (`CompleteHabit`, `DeleteHabit`, `Purchase`, …). The lemmas are proved
  about those step functions.
- **The persisted document.** It is a small JSON datatype (`SaveJson.Json`).
  Decoding an encoded save gives it back (`DecodeSave(EncodeSave(s)) == Some(s)`). A save written by any action
  loads back as itself (`SaveManager.WrittenSaveLoads`).

Where the code and its accompanying description differ, the model follows the
code:

- The habit reward is clamped to the literal 5, not to the `maxCoinReward`
  setting.
- Backups are ordered by plain lexicographic comparison of their names. This
  is chronological only while the timestamps have the same number of digits.

## Model

| member | source | states |
|---|---|---|
| Lists.IndexOfFirst | src/routes/habits/+page.server.ts:74 | `findIndex`: the first index whose element satisfies the test, or -1 exactly when none does |
| Lists.RemoveAt | src/routes/habits/+page.server.ts:147 | `splice(i, 1)`: one element shorter, the elements before `i` kept and those after it shifted down by one |
| Text.Trim | src/routes/habits/+page.server.ts:41 | the trimmed name is empty exactly when the name is all white space; it has no white space at either end |
| Text.ParseIntRoundTrip | src/lib/server/save-manager.ts:88-89 | a timestamp written as text parses back to the same number |
| Text.LexLeTotal | src/lib/server/save-manager.ts:64-67 | the order `.sort()` uses on backup names is total |
| Text.LexLeTransitive | src/lib/server/save-manager.ts:64-67 | and transitive, so the first name in sort order is well defined |
| Catalog.FindUpgrade | src/lib/server/config-loader.ts:44-47 | `getUpgrade`/`find`: the first catalog entry with the key; None exactly when no entry has it |
| SaveJson.ValidateSave | src/lib/server/save-manager.ts:92-116 | accepts exactly the non-null objects with a numeric version, a string exportedAt, an object gameState with three numeric counters and two string times, three arrays and an object claimedStreakRewards |
| SaveJson.SaveRoundTrip | src/lib/server/save-manager.ts:50-52 | decoding the document a save is written as gives back that save |
| SaveJson.DecodableSavesValidate | src/lib/server/save-manager.ts:92-116 | every document that decodes to a save passes the shape check |
| SaveJson.EncodedSavesValidate | src/lib/server/save-manager.ts:92-116 | every document the store writes passes the shape check |
| SaveJson.ArrayElementsNotInspected | src/lib/server/save-manager.ts:101-103 | replacing the habits, completions and purchases by arbitrary arrays keeps a document accepted |
| SaveJson.CoinRangeNotInspected | src/lib/server/save-manager.ts:109 | any number, negative or fractional, is accepted as the balance |
| SaveJson.VersionValueNotInspected | src/lib/server/save-manager.ts:98 | any number is accepted as the version |
| SaveJson.ArrayAcceptedAsClaims | src/lib/server/save-manager.ts:104-105 | an array is accepted as claimedStreakRewards |
| SaveJson.ShallowValidationGap | src/lib/server/save-manager.ts:92-116 | some accepted document decodes to no save |
| SaveManager.CreateDefaultSave | src/lib/server/save-manager.ts:20-38 | version 1, the starting coins, zero lifetime coins and clients, all three times equal to now, empty collections |
| SaveManager.BackupName | src/lib/server/save-manager.ts:85 | a backup's name is a `save-*.json` name |
| SaveManager.BackupNameInjective | src/lib/server/save-manager.ts:84-85 | backups taken at different times get different names |
| SaveManager.BackupListing | src/lib/server/save-manager.ts:64-65 | the listing holds exactly the directory entries that start with `save-` and end with `.json` |
| SaveManager.RotateOnlyDeletesBackups | src/lib/server/save-manager.ts:64-75 | rotation only deletes, keeps what it keeps unchanged, and never touches a file that is not a backup |
| SaveManager.Rotate | src/lib/server/save-manager.ts:61-76 | the directory `rotateBackups` leaves: a sub-map of the old one, equal to it when fewer than 3 backups were listed |
| SaveManager.RotateCount | src/lib/server/save-manager.ts:69-75 | after rotation, `MAX_BACKUPS - 1` = 2 backups remain when there were at least 3, and all of them otherwise |
| SaveManager.RotateDeletesOldest | src/lib/server/save-manager.ts:64-71 | every deleted backup sorts no later than every kept one |
| SaveManager.Oldest | src/lib/server/save-manager.ts:64-71 | the loop finds a listed name that sorts first, the one `pop()` takes from the reversed sorted list |
| SaveManager.BackupBoundAfterWrite | src/lib/server/save-manager.ts:81-86 | a backed-up write stores the previous file under the new name and leaves at most 3 backups; a write without a backup leaves the directory unchanged |
| SaveManager.BackupCountAfterWrite | src/lib/server/save-manager.ts:81-86 | with a fresh name, a backed-up write leaves one more backup than rotation kept, so exactly 3 from two backups on |
| SaveManager.Stamp | src/lib/server/save-manager.ts:88 | the written document is the given one with exportedAt set to now and every other field kept |
| SaveManager.StampEncode | src/lib/server/save-manager.ts:88-89 | stamping a saved document is writing the save with the new exportedAt |
| SaveManager.StampKeepsValid | src/lib/server/save-manager.ts:88 | a stamped document still passes the shape check and denotes the same save apart from exportedAt |
| SaveManager.LoadOutcome | src/lib/server/save-manager.ts:41-59 | a missing or unparseable file gives the default save; a parsed document gives its save, or is reported unreadable when it does not decode |
| SaveManager.FileAfterLoad | src/lib/server/save-manager.ts:44-58 | loading replaces a missing or unparseable file by the default document and leaves a parsed one alone |
| SaveManager.LoadLeavesDocument | src/lib/server/save-manager.ts:44-58 | after loading, the save file is a parsed document that decodes to the loaded save |
| SaveManager.WrittenSaveLoads | src/lib/server/save-manager.ts:78-90 | a written save loads back as itself, carrying the time of the write |
| SaveManager.SaveStore.RotateBackups | src/lib/server/save-manager.ts:61-76 | the directory becomes its rotation, and the save file is unchanged |
| SaveManager.SaveStore.BackUp | src/lib/server/save-manager.ts:81-86 | rotate, then copy the current save file in under `save-<now>.json` |
| SaveManager.SaveStore.WriteSave | src/lib/server/save-manager.ts:78-90 | the stamped document replaces the file; the directory changes only for a requested backup of an existing file |
| SaveManager.SaveStore.WriteSaveData | src/lib/server/save-manager.ts:78-90 | writes the typed save with exportedAt refreshed, taking a backup |
| SaveManager.SaveStore.LoadSave | src/lib/server/save-manager.ts:41-59 | returns `LoadOutcome`; writes the default only for a missing or unparseable file, and never backs up |
| SaveManager.SaveStore.ResetSave | src/lib/server/save-manager.ts:118-129 | backs up an existing save exactly once, then writes the default without a second backup |
| SaveManager.SaveStore.ImportSave | src/lib/server/save-manager.ts:131-139 | refuses exactly the documents failing the shape check, with "Invalid save file format", and changes nothing; otherwise writes the document with a backup and returns it |
| IdleCalculator.KeyEffect | src/lib/server/idle-calculator.ts:29-30 | a purchased key adds the effect of its first catalog entry, or nothing when the catalog lacks it |
| IdleCalculator.EffectTotal | src/lib/server/idle-calculator.ts:27-41 | the effect summed over the purchased keys; never negative for non-negative effects |
| IdleCalculator.ActiveStreaks | src/lib/server/idle-calculator.ts:51 | the number of habits with a running streak, at most the number of habits, and zero exactly when no streak is positive |
| IdleCalculator.IdleRewards | src/lib/server/idle-calculator.ts:4-62 | the reward `calculateIdleRewards` computes: paid time never exceeds the elapsed time, equals the cap when capped, and nothing is paid under a minute |
| IdleCalculator.CalculateIdleRewards | src/lib/server/idle-calculator.ts:4-62 | the loop's result equals `IdleRewards`: the three rates built up over the keys, then the floored clients and coins |
| IdleCalculator.IdleDebounce | src/lib/server/idle-calculator.ts:12-15 | under a minute away, including a negative elapsed time: 0 coins, 0 clients, not capped, the raw elapsed time |
| IdleCalculator.IdleCap | src/lib/server/idle-calculator.ts:17-20 | past the debounce, the paid time is the elapsed time cut at `maxIdleHours`, and `capped` holds exactly when time was cut |
| IdleCalculator.IdleCapExample | src/lib/server/idle-calculator.ts:17-20 | ten hours away with an 8-hour cap pays for exactly 8 hours, capped |
| IdleCalculator.IdleRewardExample | src/lib/server/idle-calculator.ts:43-54 | 5 clients an hour at 2 coins with an income multiplier of 1.5, for 2 hours: 10 clients and 30 coins |
| IdleCalculator.EffectTotalAppend | src/lib/server/idle-calculator.ts:27-41 | effects add up over concatenated key lists |
| IdleCalculator.UnknownKeysIgnored | src/lib/server/idle-calculator.ts:29-30 | appending keys the catalog does not know changes no rate |
| IdleCalculator.UnknownTotalZero | src/lib/server/idle-calculator.ts:29-30 | unknown keys alone total zero |
| IdleCalculator.FirstEntryCounts | src/lib/server/idle-calculator.ts:29 | with duplicate keys in the catalog, the first entry is the one that counts |
| IdleCalculator.IdleRewardNonNegative | src/lib/server/idle-calculator.ts:43-54 | with non-negative rates and effects, coins and clients are never negative |
| IdleCalculator.PayoutNonNegative | src/lib/server/idle-calculator.ts:43-54 | the floors of non-negative products are non-negative |
| IdleCalculator.IdleClientsMonotone | src/lib/server/idle-calculator.ts:43-45 | staying away longer never brings fewer clients |
| IdleCalculator.TruncMod | src/lib/server/idle-calculator.ts:66 | JavaScript `%`: the result has the dividend's sign, agrees with Dafny's `%` on non-negative dividends, and for a negative dividend is the negated remainder of its magnitude |
| IdleCalculator.TruncModOdd | src/lib/server/idle-calculator.ts:66 | negating the dividend negates the remainder |
| IdleCalculator.IdleMinutes | src/lib/server/idle-calculator.ts:66 | the minutes shown are always below 60, and never negative for a non-negative duration |
| IdleCalculator.FormatIdleTime | src/lib/server/idle-calculator.ts:64-75 | `formatIdleTime`: the text starts with the whole hours, or with the minutes when under an hour |
| IdleCalculator.IdleTimeParts | src/lib/server/idle-calculator.ts:65-66 | for a non-negative duration, hours * 60 + minutes is its whole number of minutes |
| IdleCalculator.UnitSingularIffOne | src/lib/server/idle-calculator.ts:69-73 | a unit takes no "s" exactly when its count is 1 |
| IdleCalculator.FormatMinutesOnly | src/lib/server/idle-calculator.ts:68-69 | under an hour, only minutes are shown: "0 minutes", "1 minute" |
| IdleCalculator.FormatHoursOnly | src/lib/server/idle-calculator.ts:70-71 | whole hours show only hours: "1 hour", "2 hours" |
| IdleCalculator.FormatHoursAndMinutes | src/lib/server/idle-calculator.ts:72-73 | both parts are joined by "and": "1 hour and 30 minutes" |
| HabitsPage.NextDay | src/routes/habits/+page.server.ts:23-32 | a day later is the next calendar day |
| HabitsPage.IsToday | src/routes/habits/+page.server.ts:13-21 | `isToday`: same calendar day as now, hence less than a day apart |
| HabitsPage.IsYesterday | src/routes/habits/+page.server.ts:23-32 | `isYesterday`: the calendar day before now, hence between zero and two days earlier |
| HabitsPage.YesterdayIsDayBeforeToday | src/routes/habits/+page.server.ts:13-32 | yesterday is never today, and a moment is yesterday's exactly when one day later is today's |
| HabitsPage.ClampReward | src/routes/habits/+page.server.ts:38 | `parseInt(..) \|\| 1` clamped: always in [1, 5], kept when already in range, 5 above it, 1 below it and for NaN or 0 |
| HabitsPage.CheckName | src/routes/habits/+page.server.ts:41-43 | a missing or all-white-space name is refused with "Habit name is required"; otherwise the non-empty trimmed name |
| HabitsPage.CreateHabit | src/routes/habits/+page.server.ts:48-59 | exactly one habit appended at the end (trimmed name, clamped reward, no streak, never completed); game state, completions, upgrades, claims, version and `exportedAt` kept |
| HabitsPage.CreateKeepsStreaksConsistent | src/routes/habits/+page.server.ts:48-59 | creating keeps every streak non-negative and within its longest streak |
| HabitsPage.HabitIndex | src/routes/habits/+page.server.ts:74 | the first habit with the id, or -1 exactly when there is none |
| HabitsPage.CompleteHabit | src/routes/habits/+page.server.ts:74-128 | the `complete` step on the loaded save: refusals have status 200; a success keeps the habit count, appends one completion, records the reply's streak and `now` on the completed habit, and replies with the new balance |
| HabitsPage.CompleteRefusals | src/routes/habits/+page.server.ts:74-85 | completion is refused with "Habit not found" exactly for an unknown id, and with "Habit already completed today" exactly for a habit done today; these are its only refusals, and every known habit not done today is completed |
| HabitsPage.CompleteEffect | src/routes/habits/+page.server.ts:99-119 | only the completed habit changes: id, name, reward, recurrence and creation time kept, the new streak, longestStreak = max(old, new) and lastCompleted = now; the game state differs only in coins and lifetime coins, both raised by its reward; one completion is appended; version and `exportedAt` kept |
| HabitsPage.StreakRule | src/routes/habits/+page.server.ts:87-95 | after yesterday the streak is one more; after an older day or never it is 1 |
| HabitsPage.CompleteKeepsStreaksConsistent | src/routes/habits/+page.server.ts:100-105 | completing keeps every streak within its longest streak |
| HabitsPage.SecondCompletionSameDayRefused | src/routes/habits/+page.server.ts:82-85 | a second completion on the same day is refused |
| HabitsPage.NextDayCompletionExtendsStreak | src/routes/habits/+page.server.ts:87-95 | a completion on the next day succeeds and extends the streak by one |
| HabitsPage.DeleteHabit | src/routes/habits/+page.server.ts:140-154 | the `delete` step on the loaded save: a refusal has status 200; a success leaves one habit fewer |
| HabitsPage.DeleteEffect | src/routes/habits/+page.server.ts:139-152 | deletion removes exactly the first habit with the id, keeps the rest in order, and keeps completions, game state, upgrades, claims, version and `exportedAt`; refused with "Habit not found" exactly for an unknown id |
| HabitsPage.DeleteKeepsStreaksConsistent | src/routes/habits/+page.server.ts:146-147 | deleting keeps every streak within its longest streak |
| HabitsPage.HabitsLoad | src/routes/habits/+page.server.ts:5-11 | the page shows the loaded habits and balance |
| HabitsPage.CreateAction | src/routes/habits/+page.server.ts:35-63 | a blank name is refused before loading, with no store change; otherwise one habit is appended and written with a backup |
| HabitsPage.CompleteAction | src/routes/habits/+page.server.ts:65-129 | a missing id is refused before loading; otherwise the store and the reply are those of `CompleteHabit`, written only on success |
| HabitsPage.DeleteAction | src/routes/habits/+page.server.ts:131-155 | a missing id is refused before loading; otherwise the store and the reply are those of `DeleteHabit` |
| HomePage.Midnight | src/routes/+page.server.ts:22-23 | `setHours(0,0,0,0)`: the start of the moment's day, on the same day |
| HomePage.MidnightsCompareDays | src/routes/+page.server.ts:22-40 | equal midnights mean the same day, and midnights a day apart mean consecutive days |
| HomePage.CompleteOnHome | src/routes/+page.server.ts:14-68 | 404 "Habit not found" and 400 "Already completed today" exactly where the habits page refuses; otherwise the same save, coins and new streak as the habits page |
| HomePage.HomeCompleteAction | src/routes/+page.server.ts:6-78 | a missing id gives 400 "Habit ID required" with no store change; otherwise it succeeds exactly when the habits page's step does, writing that step's save and replying with the habit's name, the coins awarded and the new streak; an unknown habit gives 404 "Habit not found" and a second completion today 400 "Already completed today", with no write |
| ShopPage.CheckKey | src/routes/shop/+page.server.ts:22-36 | a missing or empty key gives 400 "Invalid upgrade key"; a key the catalog lacks gives 404 "Upgrade not found"; a known key gives the first catalog entry with that key |
| ShopPage.Purchase | src/routes/shop/+page.server.ts:39-70 | the purchase on the loaded save: refusals have status 400; a success leaves a non-negative balance lowered by the cost, the key owned, and replies with the key and that balance |
| ShopPage.PurchaseEffect | src/routes/shop/+page.server.ts:42-69 | refused as owned exactly when owned, and for lack of coins exactly when unaffordable; otherwise the cost is deducted, the key appended, habits, completions, claims, version and `exportedAt` unchanged, and the reply carries the new balance |
| ShopPage.PurchaseKeepsInvariants | src/routes/shop/+page.server.ts:42-61 | a purchase leaves a non-negative balance and a duplicate-free purchase list |
| ShopPage.SecondPurchaseRefused | src/routes/shop/+page.server.ts:42-47 | buying the same upgrade again is refused as already owned |
| ShopPage.PurchaseAction | src/routes/shop/+page.server.ts:18-71 | key checks before loading change nothing; otherwise the store and reply follow `Purchase`; the shortfall reports required = cost and available = coins |
| ShopPage.ShopLoad | src/routes/shop/+page.server.ts:6-15 | the page shows the catalog, the owned keys and the balance |
| Layout.Settle | src/routes/+layout.server.ts:16-22 | the settled save: the balance never drops, and rises by exactly as much as the lifetime total |
| Layout.SettleEffect | src/routes/+layout.server.ts:16-22 | a paid reward adds its coins to the balance and the lifetime total alike and its clients to the count, and moves the tick to now, keeping `createdAt`, version and `exportedAt`; an unpaid one changes nothing; habits, completions, upgrades and claims are never touched |
| Layout.SettleMonotone | src/routes/+layout.server.ts:16-20 | settling never moves the tick backwards, nor lowers the balance or the lifetime total |
| Layout.SettleOnce | src/routes/+layout.server.ts:13-22 | once a reward is paid, a reload within a minute pays nothing |
| Layout.LayoutLoad | src/routes/+layout.server.ts:6-33 | returns the computed reward either way; writes the settled save only when the reward is worth a coin |
| StatsPage.Resolve | src/routes/stats/+page.server.ts:11-13 | purchased keys mapped to catalog entries, unknown keys dropped, order kept |
| StatsPage.ResolveKeepsAllKnown | src/routes/stats/+page.server.ts:11-13 | nothing is dropped exactly when the catalog knows every key |
| StatsPage.Sources | src/routes/stats/+page.server.ts:34-56 | no more sources than upgrades, and every source's value is non-zero |
| StatsPage.SourcesOfOne | src/routes/stats/+page.server.ts:34-56 | one upgrade gives exactly one source, its name and value, when its value is non-zero, and none otherwise |
| StatsPage.SourcesAppend | src/routes/stats/+page.server.ts:34-56 | the breakdown of a concatenation is the two breakdowns one after the other, so with `SourcesOfOne` there is one source per contributing upgrade, in order |
| StatsPage.SourcesSumToBonus | src/routes/stats/+page.server.ts:34-56 | the sources add up to the bonus |
| StatsPage.BonusMatchesIdleEngine | src/routes/stats/+page.server.ts:34-56 | each bonus equals the effect total the idle engine pays on |
| StatsPage.SumEffects | src/routes/stats/+page.server.ts:16-56 | the loop yields bases 5, 0 and 1, with each bonus the effect's sum and its sources |
| StatsPage.ResolveSkipsUnknown | src/routes/stats/+page.server.ts:11-13 | a purchased key the catalog does not know leaves the resolved list unchanged |
| StatsPage.InCategory | src/routes/stats/+page.server.ts:59-65 | a group holds only upgrades of its category drawn from the list, and every upgrade of that category is in it |
| StatsPage.InCategoryCounts | src/routes/stats/+page.server.ts:59-65 | `filter` keeps multiplicity: an upgrade of the category occurs in its group as often as in the list, any other not at all |
| StatsPage.InCategoryAppend | src/routes/stats/+page.server.ts:59-65 | `filter` keeps order: filtering a concatenation gives the two filtered parts one after the other |
| StatsPage.GroupByCategory | src/routes/stats/+page.server.ts:59-65 | `upgradesByCategory`: every upgrade in each of the five groups has that group's category |
| StatsPage.GroupsPartition | src/routes/stats/+page.server.ts:59-70 | the five group sizes add up to `totalUpgrades` |
| StatsPage.TotalCost | src/routes/stats/+page.server.ts:71 | the total spent is never negative when costs are not |
| StatsPage.PurchaseAddsToTotals | src/routes/stats/+page.server.ts:70-71 | buying a known upgrade adds one to the count and its cost to the total spent |
| StatsPage.StatsLoad | src/routes/stats/+page.server.ts:6-73 | the page shows the stats, groups, count and total of the resolved purchases |
| SettingsPage.DaysPlaying | src/routes/settings/+page.server.ts:9-11 | the floor of whole days since creation, plus one |
| SettingsPage.DaysPlayingCounts | src/routes/settings/+page.server.ts:11 | day 1 at creation, at least 1 afterwards, and one more for each further day |
| SettingsPage.BestStreak | src/routes/settings/+page.server.ts:17 | the largest longestStreak, or 0 with no habits |
| SettingsPage.SettingsLoad | src/routes/settings/+page.server.ts:5-30 | the counts are the lengths of the collections; also shows days playing and the best streak |
| SettingsPage.FreshSaveSummary | src/routes/settings/+page.server.ts:9-17 | a fresh save shows day 1, best streak 0 and the starting balance |
| SettingsPage.CheckUpload | src/routes/settings/+page.server.ts:37-62 | an upload passes exactly when present, non-empty, named `.json`, parsed and shape-valid; "No file uploaded" exactly for a missing or empty one |
| SettingsPage.ImportAction | src/routes/settings/+page.server.ts:33-85 | a refused upload changes nothing; an accepted one replaces the save, stamped, with one backup |
| SettingsPage.ImportThenLoad | src/routes/settings/+page.server.ts:65-72 | after importing a decodable save, loading gives that save with the import time |
| SettingsPage.ResetAction | src/routes/settings/+page.server.ts:87-112 | only the exact word RESET proceeds; anything else changes nothing; a reset writes the default after one backup |
| SettingsPage.ResetThenLoad | src/routes/settings/+page.server.ts:98-99 | after a reset, loading gives the default save |

## Left out

- **Dates and clocks.**
  - Calendar days are UTC days (`t / 86400000`). Local time zones and daylight saving in `setHours`/`setDate` and in `isToday`/`isYesterday` are not modelled.
  - ISO-8601 text is represented by the decimal text of the millisecond count.
  - Every operation reads one clock value `now`; the source reads the clock several times in one request.
- **Exact arithmetic.** Rates and effect sums are exact `real`s. IEEE-754 rounding, and the NaN of an unparseable `lastIdleTick` or `createdAt`, are not modelled, so a floor boundary may fall differently.
- **Undecodable saves.** A save file that parses as JSON but does not decode into the model's `SaveData`, whether or not it passes `validateSave` (a save lacking `exportedAt` or `version`, say, which no route reads), is treated as follows:
  - `loadSave` returns it unchanged, and the routes go on with it. Often they proceed normally: no route reads `claimedStreakRewards`, so an array there is harmless; a fractional coin balance is added to like any number; a habit whose recurrence is an arbitrary form string is completed like any other. Other shapes make the route code throw or compute with `undefined`.
  - The model refuses all of these documents, although the source proceeds with many of them: its actions stop with status 500 and the message "Save file is unreadable", and write nothing. That message is the model's own.
- **Unknown keys.** The source writes the parsed object back with `JSON.stringify`, so keys outside the save's schema (a top-level `"theme"`, a habit's `"notes"`) survive every write. The model writes `EncodeSave` of the typed save, so fields of a stored document outside the `SaveData` schema are dropped at the next typed write (complete, create, delete, purchase, idle settlement). Import and the stamp it applies keep every key.
- **Fractional idle cap.** `IdleSettings.maxIdleHours` is an integer number of hours; the source's setting is any number, so a cap such as half an hour is not representable.
- **File-system plumbing.**
  - The model does not capture the following:
    - `ensureDirectories`;
    - file-system failures;
    - the `catch` blocks they would trigger (the 500 "Failed to reset save", the import's parse catch beyond a refused parse, `File.text()` failing);
    - the log line of a corrupt load.
  - `JSON.parse` of an uploaded file is an input (`Upload.parsed`).
  - The stored form of an unparseable save file is opaque text.
- **importSave after validation.** The import action cannot reach `importSave`'s failure branch, because the document was validated just before. The model proves this with an assertion instead of modelling the fallback message "Failed to import save".
- **Concurrency.** Concurrent requests, the lost-update race between load and write, and backup-name collisions within one millisecond are not modelled (`BackupCountAfterWrite` assumes a fresh name).
- **Unvalidated form input.**
  - The recurrence string is taken as already parsed. An unknown string, which the source stores unvalidated, is not representable.
  - `parseInt` is an input (`Option<int>`, None for NaN).
  - Upgrade effect fields that are absent are 0.0, which is equally falsy.
- **Form echoes.** The forms' echo fields (`upgradeKey` in shop refusals, `action` in settings replies, `success` flags) are not carried. The shop's `required`/`available` are carried as `ShopPage.Shortfall`.
- **Other code.** The configuration loader and its cache are left out: the catalog and the settings are parameters, and `getUpgrade` is `Catalog.FindUpgrade`. The PixiJS renderer, the export endpoint, the clinic page and the re-export module are not part of this model. The layout's pass-through of the configuration is not modelled.
- **Name ordering.** Strings compare by code point, not by UTF-16 code unit. The two orders agree on the ASCII backup names the store creates.
- **Purity.** `calculateIdleRewards` cannot modify the save it is given, because the model passes it by value.

=== FILE: catalog.dfy ===
/**
 * Lookups in the upgrade catalog (`getUpgrade`, `upgrades.find`).  The
 * catalog itself is an immutable input: reading and caching the configuration
 * files is not part of this model.
 */
module Catalog {
  import opened Types
  import opened Lists

  /** The three effect fields an upgrade may carry. */
  datatype Effect = ClientCapacity | SatisfactionPercent | IncomeMultiplier

  function EffectOf(u: Upgrade, e: Effect): real {
    match e
    case ClientCapacity => u.effects.clientCapacity
    case SatisfactionPercent => u.effects.satisfactionPercent
    case IncomeMultiplier => u.effects.incomeMultiplier
  }

  /** `upgrades.find((u) => u.key === key)`: the first catalog entry with that key. */
  function FindUpgrade(catalog: seq<Upgrade>, key: string): (r: Option<Upgrade>)
    ensures r.None? <==> forall j :: 0 <= j < |catalog| ==> catalog[j].key != key
    ensures r.Some? ==> exists i :: 0 <= i < |catalog| && catalog[i] == r.value
                                    && r.value.key == key
                                    && forall j :: 0 <= j < i ==> catalog[j].key != key
  {
    var i := IndexOfFirst(catalog, (u: Upgrade) => u.key == key);
    if i < 0 then None else Some(catalog[i])
  }
}

=== FILE: habits.dfy ===
/**
 * The habit rules of the habits page (src/routes/habits/+page.server.ts):
 * creating, completing and deleting habits.  Calendar days are whole UTC
 * days since the epoch; ids are fresh parameters.
 */
module HabitsPage {
  import opened Types
  import opened Lists
  import opened Text
  import opened SaveJson
  import opened SaveManager

  const MsPerDay: int := 86400000

  /** The calendar day a moment falls on. */
  function DayOf(t: Timestamp): int {
    t / MsPerDay
  }

  /** `isToday`: `t` falls on the same calendar day as `now`. */
  predicate IsToday(t: Timestamp, now: Timestamp)
    ensures IsToday(t, now) ==> -MsPerDay < now - t < MsPerDay
  {
    DayOf(t) == DayOf(now)
  }

  /** `isYesterday`: `t` falls on the calendar day before the one of `now`. */
  predicate IsYesterday(t: Timestamp, now: Timestamp)
    ensures IsYesterday(t, now) ==> 0 < now - t < 2 * MsPerDay
  {
    DayOf(t) == DayOf(now) - 1
  }

  /** A day later is the next calendar day. */
  lemma NextDay(t: Timestamp)
    ensures DayOf(t + MsPerDay) == DayOf(t) + 1
  {
  }

  /** Yesterday is never today, and a moment a day later than yesterday's is today's. */
  lemma YesterdayIsDayBeforeToday(t: Timestamp, now: Timestamp)
    ensures IsYesterday(t, now) ==> !IsToday(t, now)
    ensures IsYesterday(t, now) <==> IsToday(t + MsPerDay, now)
  {
    NextDay(t);
  }

  // ---------------------------------------------------------------------------
  // create
  // ---------------------------------------------------------------------------

  /**
   * The reward a new habit carries: `parseInt(...) || 1` clamped to [1, 5];
   * `parsed` is None where `parseInt` gives NaN.
   */
  function ClampReward(parsed: Option<int>): (reward: int)
    ensures 1 <= reward <= 5
    ensures parsed.Some? && 1 <= parsed.value <= 5 ==> reward == parsed.value
    ensures parsed.Some? && parsed.value > 5 ==> reward == 5
    ensures parsed.None? || parsed.value < 1 ==> reward == 1
  {
    var r := if parsed.None? || parsed.value == 0 then 1 else parsed.value;
    var atLeastOne := if r > 1 then r else 1;
    if atLeastOne < 5 then atLeastOne else 5
  }

  /** The habit `create` builds: trimmed name, no streak, never completed. */
  function NewHabit(id: string, name: string, parsedReward: Option<int>,
                    recurrence: Option<Recurrence>, now: Timestamp): Habit
  {
    Habit(id, Trim(name), ClampReward(parsedReward),
          if recurrence.Some? then recurrence.value else Daily, 0, 0, None, now)
  }

  /** Every streak is non-negative and within the habit's longest streak. */
  predicate StreaksConsistent(habits: seq<Habit>) {
    forall i :: 0 <= i < |habits| ==> 0 <= habits[i].streak <= habits[i].longestStreak
  }

  /** A blank name (missing, empty or white space) is refused. */
  function CheckName(name: Option<string>): (r: Outcome<string>)
    ensures r.Failure? <==> name.None? || AllWhiteSpace(name.value)
    ensures r.Failure? ==> r == Failure(200, "Habit name is required")
    ensures r.Success? ==> r.value == Trim(name.value) && r.value != []
  {
    if name.None? || Trim(name.value) == [] then Failure(200, "Habit name is required")
    else Success(Trim(name.value))
  }

  /** `create` after the name check: one habit appended at the end. */
  function CreateHabit(save: SaveData, id: string, name: string, parsedReward: Option<int>,
                       recurrence: Option<Recurrence>, now: Timestamp): (r: SaveData)
    ensures |r.habits| == |save.habits| + 1 && r.habits[..|save.habits|] == save.habits
    ensures r.habits[|save.habits|] == NewHabit(id, name, parsedReward, recurrence, now)
    ensures r.gameState == save.gameState && r.completions == save.completions
    ensures r.purchasedUpgrades == save.purchasedUpgrades && r.claimedStreakRewards == save.claimedStreakRewards
    ensures r.version == save.version && r.exportedAt == save.exportedAt
  {
    save.(habits := save.habits + [NewHabit(id, name, parsedReward, recurrence, now)])
  }

  /** Appending a habit with a consistent streak keeps the list consistent. */
  lemma AppendKeepsStreaksConsistent(habits: seq<Habit>, h: Habit)
    requires StreaksConsistent(habits) && 0 <= h.streak <= h.longestStreak
    ensures StreaksConsistent(habits + [h])
  {
    var after := habits + [h];
    forall j | 0 <= j < |after|
      ensures 0 <= after[j].streak <= after[j].longestStreak
    {
      if j < |habits| {
        assert after[j] == habits[j];
      }
    }
  }

  lemma CreateKeepsStreaksConsistent(save: SaveData, id: string, name: string, parsedReward: Option<int>,
                                     recurrence: Option<Recurrence>, now: Timestamp)
    requires StreaksConsistent(save.habits)
    ensures StreaksConsistent(CreateHabit(save, id, name, parsedReward, recurrence, now).habits)
  {
    var created := NewHabit(id, name, parsedReward, recurrence, now);
    AppendKeepsStreaksConsistent(save.habits, created);
    assert CreateHabit(save, id, name, parsedReward, recurrence, now).habits == save.habits + [created];
  }

  // ---------------------------------------------------------------------------
  // complete
  // ---------------------------------------------------------------------------

  /** The index of the first habit with the given id, or -1. */
  function HabitIndex(habits: seq<Habit>, habitId: string): (i: int)
    ensures -1 <= i < |habits|
    ensures 0 <= i ==> habits[i].id == habitId && forall j :: 0 <= j < i ==> habits[j].id != habitId
    ensures i == -1 <==> forall j :: 0 <= j < |habits| ==> habits[j].id != habitId
  {
    IndexOfFirst(habits, (h: Habit) => h.id == habitId)
  }

  /** The streak after a completion at `now`: one more after yesterday, else a fresh 1. */
  function NextStreak(h: Habit, now: Timestamp): int {
    if h.lastCompleted.Some? && IsYesterday(h.lastCompleted.value, now) then h.streak + 1 else 1
  }

  datatype CompletionReply = CompletionReply(coinsAwarded: int, newStreak: int, totalCoins: int)

  /** The habits page's `complete` after the id check. */
  function CompleteHabit(save: SaveData, habitId: string, now: Timestamp, completionId: string)
    : (r: Outcome<Applied<CompletionReply>>)
    ensures r.Failure? ==> r.status == 200
    ensures r.Success? ==>
              && |r.value.save.habits| == |save.habits|
              && |r.value.save.completions| == |save.completions| + 1
              && r.value.reply.totalCoins == r.value.save.gameState.coins
              && HabitIndex(save.habits, habitId) >= 0
              && r.value.save.habits[HabitIndex(save.habits, habitId)].streak == r.value.reply.newStreak
              && r.value.save.habits[HabitIndex(save.habits, habitId)].lastCompleted == Some(now)
  {
    var i := HabitIndex(save.habits, habitId);
    if i < 0 then Failure(200, "Habit not found")
    else
      var habit := save.habits[i];
      if habit.lastCompleted.Some? && IsToday(habit.lastCompleted.value, now) then
        Failure(200, "Habit already completed today")
      else
        var newStreak := NextStreak(habit, now);
        var updated := habit.(streak := newStreak,
                              longestStreak := if habit.longestStreak > newStreak then habit.longestStreak else newStreak,
                              lastCompleted := Some(now));
        var coinsAwarded := habit.coinReward;
        var gs := save.gameState;
        var after := save.(habits := save.habits[i := updated],
                           gameState := gs.(coins := gs.coins + coinsAwarded,
                                            lifetimeCoins := gs.lifetimeCoins + coinsAwarded),
                           completions := save.completions + [Completion(completionId, habitId, now, coinsAwarded)]);
        Success(Applied(after, CompletionReply(coinsAwarded, newStreak, after.gameState.coins)))
  }

  /** A completion is refused exactly when the id is unknown or the habit was already done today. */
  lemma CompleteRefusals(save: SaveData, habitId: string, now: Timestamp, completionId: string)
    ensures var r := CompleteHabit(save, habitId, now, completionId);
            var i := HabitIndex(save.habits, habitId);
            && (r == Failure(200, "Habit not found") <==> i == -1)
            && (r == Failure(200, "Habit already completed today") <==>
                  i >= 0 && save.habits[i].lastCompleted.Some? && IsToday(save.habits[i].lastCompleted.value, now))
            && (r.Failure? ==> r == Failure(200, "Habit not found") || r == Failure(200, "Habit already completed today"))
            && (r.Success? <==>
                  i >= 0 && !(save.habits[i].lastCompleted.Some? && IsToday(save.habits[i].lastCompleted.value, now)))
  {
  }

  /**
   * A successful completion updates only the completed habit, adds its reward
   * to the balance and to the lifetime total, and appends one completion.
   */
  lemma CompleteEffect(save: SaveData, habitId: string, now: Timestamp, completionId: string)
    requires CompleteHabit(save, habitId, now, completionId).Success?
    ensures var i := HabitIndex(save.habits, habitId);
            var old_ := save.habits[i];
            var a := CompleteHabit(save, habitId, now, completionId).value;
            var s := a.save;
            && i >= 0
            && |s.habits| == |save.habits|
            && (forall j :: 0 <= j < |save.habits| && j != i ==> s.habits[j] == save.habits[j])
            && s.habits[i].id == old_.id && s.habits[i].name == old_.name
            && s.habits[i].coinReward == old_.coinReward && s.habits[i].createdAt == old_.createdAt
            && s.habits[i].streak == NextStreak(old_, now)
            && s.habits[i].longestStreak >= old_.longestStreak
            && s.habits[i].longestStreak >= s.habits[i].streak
            && (s.habits[i].longestStreak == old_.longestStreak || s.habits[i].longestStreak == s.habits[i].streak)
            && s.habits[i].recurrence == old_.recurrence
            && s.habits[i].lastCompleted == Some(now)
            && s.gameState == save.gameState.(coins := save.gameState.coins + old_.coinReward,
                                              lifetimeCoins := save.gameState.lifetimeCoins + old_.coinReward)
            && s.version == save.version && s.exportedAt == save.exportedAt
            && s.completions == save.completions + [Completion(completionId, habitId, now, old_.coinReward)]
            && s.purchasedUpgrades == save.purchasedUpgrades
            && s.claimedStreakRewards == save.claimedStreakRewards
            && a.reply == CompletionReply(old_.coinReward, s.habits[i].streak, s.gameState.coins)
  {
  }

  /** The streak rule: after yesterday one more, after an older day or never a fresh 1. */
  lemma StreakRule(h: Habit, now: Timestamp)
    requires h.lastCompleted.None? || !IsToday(h.lastCompleted.value, now)
    ensures h.lastCompleted.Some? && DayOf(h.lastCompleted.value) == DayOf(now) - 1 ==> NextStreak(h, now) == h.streak + 1
    ensures h.lastCompleted.Some? && DayOf(h.lastCompleted.value) < DayOf(now) - 1 ==> NextStreak(h, now) == 1
    ensures h.lastCompleted.None? ==> NextStreak(h, now) == 1
  {
  }

  /** Completing keeps every streak within its longest streak. */
  lemma CompleteKeepsStreaksConsistent(save: SaveData, habitId: string, now: Timestamp, completionId: string)
    requires StreaksConsistent(save.habits)
    requires CompleteHabit(save, habitId, now, completionId).Success?
    ensures StreaksConsistent(CompleteHabit(save, habitId, now, completionId).value.save.habits)
  {
    CompleteEffect(save, habitId, now, completionId);
    var s := CompleteHabit(save, habitId, now, completionId).value.save;
    var i := HabitIndex(save.habits, habitId);
    forall j | 0 <= j < |s.habits|
      ensures 0 <= s.habits[j].streak <= s.habits[j].longestStreak
    {
      if j != i {
        assert s.habits[j] == save.habits[j];
      }
    }
  }

  /** A second completion on the same calendar day is refused. */
  lemma SecondCompletionSameDayRefused(save: SaveData, habitId: string, now: Timestamp, later: Timestamp,
                                       id1: string, id2: string)
    requires CompleteHabit(save, habitId, now, id1).Success?
    requires DayOf(later) == DayOf(now)
    ensures CompleteHabit(CompleteHabit(save, habitId, now, id1).value.save, habitId, later, id2)
            == Failure(200, "Habit already completed today")
  {
    CompleteEffect(save, habitId, now, id1);
    var s := CompleteHabit(save, habitId, now, id1).value.save;
    var i := HabitIndex(save.habits, habitId);
    SameIndexAfterUpdate(save.habits, s.habits, habitId, i);
  }

  /** Completing on consecutive days grows the streak by one each day. */
  lemma NextDayCompletionExtendsStreak(save: SaveData, habitId: string, now: Timestamp, later: Timestamp,
                                       id1: string, id2: string)
    requires CompleteHabit(save, habitId, now, id1).Success?
    requires DayOf(later) == DayOf(now) + 1
    ensures var s := CompleteHabit(save, habitId, now, id1).value.save;
            var i := HabitIndex(save.habits, habitId);
            && CompleteHabit(s, habitId, later, id2).Success?
            && CompleteHabit(s, habitId, later, id2).value.reply.newStreak == s.habits[i].streak + 1
  {
    CompleteEffect(save, habitId, now, id1);
    var s := CompleteHabit(save, habitId, now, id1).value.save;
    var i := HabitIndex(save.habits, habitId);
    SameIndexAfterUpdate(save.habits, s.habits, habitId, i);
  }

  /** Replacing the first habit with an id by one with the same id leaves it the first. */
  lemma SameIndexAfterUpdate(before: seq<Habit>, after: seq<Habit>, habitId: string, i: int)
    requires i == HabitIndex(before, habitId) && i >= 0
    requires |after| == |before| && after[i].id == habitId
    requires forall j :: 0 <= j < |before| && j != i ==> after[j] == before[j]
    ensures HabitIndex(after, habitId) == i
  {
    forall j | 0 <= j < i
      ensures after[j].id != habitId
    {
      assert after[j] == before[j];
    }
  }

  // ---------------------------------------------------------------------------
  // delete
  // ---------------------------------------------------------------------------

  /** The habits page's `delete` after the id check. */
  function DeleteHabit(save: SaveData, habitId: string): (r: Outcome<Applied<()>>)
    ensures r.Failure? ==> r.status == 200
    ensures r.Success? ==> |r.value.save.habits| == |save.habits| - 1
  {
    var i := HabitIndex(save.habits, habitId);
    if i < 0 then Failure(200, "Habit not found")
    else Success(Applied(save.(habits := RemoveAt(save.habits, i)), ()))
  }

  /**
   * Deleting removes exactly the first habit with the id, keeps the others in
   * order, and keeps every completion (the history stays).
   */
  lemma DeleteEffect(save: SaveData, habitId: string)
    ensures var r := DeleteHabit(save, habitId);
            var i := HabitIndex(save.habits, habitId);
            && (r.Failure? <==> i == -1)
            && (r.Failure? ==> r == Failure(200, "Habit not found"))
            && (r.Success? ==>
                  && r.value.save.habits == save.habits[..i] + save.habits[i + 1..]
                  && save.habits[i].id == habitId
                  && r.value.save.completions == save.completions
                  && r.value.save.gameState == save.gameState
                  && r.value.save.purchasedUpgrades == save.purchasedUpgrades
                  && r.value.save.claimedStreakRewards == save.claimedStreakRewards
                  && r.value.save.version == save.version && r.value.save.exportedAt == save.exportedAt)
  {
  }

  lemma DeleteKeepsStreaksConsistent(save: SaveData, habitId: string)
    requires StreaksConsistent(save.habits)
    requires DeleteHabit(save, habitId).Success?
    ensures StreaksConsistent(DeleteHabit(save, habitId).value.save.habits)
  {
    var i := HabitIndex(save.habits, habitId);
    var after := DeleteHabit(save, habitId).value.save.habits;
    forall j | 0 <= j < |after|
      ensures 0 <= after[j].streak <= after[j].longestStreak
    {
      if j < i {
        assert after[j] == save.habits[j];
      } else {
        assert after[j] == save.habits[j + 1];
      }
    }
  }

  // ---------------------------------------------------------------------------
  // The page and its actions against the store
  // ---------------------------------------------------------------------------

  datatype HabitsView = HabitsView(habits: seq<Habit>, coins: int)

  /** The habits page's `load`: the habits and the balance of the loaded save. */
  method HabitsLoad(store: SaveStore, settings: SettingsConfig, now: Timestamp) returns (r: Outcome<HabitsView>)
    modifies store
    ensures store.AfterLoad(old(store.saveFile), old(store.backups), settings, now)
    ensures match LoadOutcome(old(store.saveFile), settings, now)
            case Malformed(_) => r == Failure(500, UnreadableSave)
            case Loaded(s) => r == Success(HabitsView(s.habits, s.gameState.coins))
  {
    var loaded := store.LoadSave(settings, now);
    if loaded.Malformed? {
      return Failure(500, UnreadableSave);
    }
    r := Success(HabitsView(loaded.save.habits, loaded.save.gameState.coins));
  }

  /** `create`: name check, load, append one habit, write with a backup. */
  method CreateAction(store: SaveStore, name: Option<string>, parsedReward: Option<int>,
                      recurrence: Option<Recurrence>, settings: SettingsConfig, now: Timestamp, id: string)
    returns (r: Outcome<Habit>)
    modifies store
    ensures CheckName(name).Failure? ==>
              r == Failure(200, "Habit name is required")
              && store.saveFile == old(store.saveFile) && store.backups == old(store.backups)
    ensures CheckName(name).Success? ==>
              match LoadOutcome(old(store.saveFile), settings, now)
              case Malformed(_) =>
                r == Failure(500, UnreadableSave) && store.AfterLoad(old(store.saveFile), old(store.backups), settings, now)
              case Loaded(s) =>
                var habit := NewHabit(id, name.value, parsedReward, recurrence, now);
                store.Settled(old(store.saveFile), old(store.backups), settings, now,
                              Success(Applied(CreateHabit(s, id, name.value, parsedReward, recurrence, now), habit)), r)
  {
    if name.None? || Trim(name.value) == [] {
      return Failure(200, "Habit name is required");
    }
    var loaded := store.LoadSave(settings, now);
    if loaded.Malformed? {
      return Failure(500, UnreadableSave);
    }
    var save := loaded.save;
    var newHabit := Habit(id, Trim(name.value), ClampReward(parsedReward),
                          if recurrence.Some? then recurrence.value else Daily, 0, 0, None, now);
    save := save.(habits := save.habits + [newHabit]);
    store.WriteSaveData(save, now);
    r := Success(newHabit);
  }

  /** `complete`: id check, load, update the habit, award the coins, record the completion, write. */
  method CompleteAction(store: SaveStore, habitId: string, settings: SettingsConfig, now: Timestamp,
                        completionId: string)
    returns (r: Outcome<CompletionReply>)
    modifies store
    ensures habitId == [] ==>
              r == Failure(200, "Habit ID is required")
              && store.saveFile == old(store.saveFile) && store.backups == old(store.backups)
    ensures habitId != [] ==>
              match LoadOutcome(old(store.saveFile), settings, now)
              case Malformed(_) =>
                r == Failure(500, UnreadableSave) && store.AfterLoad(old(store.saveFile), old(store.backups), settings, now)
              case Loaded(s) =>
                store.Settled(old(store.saveFile), old(store.backups), settings, now,
                              CompleteHabit(s, habitId, now, completionId), r)
  {
    if habitId == [] {
      return Failure(200, "Habit ID is required");
    }
    var loaded := store.LoadSave(settings, now);
    if loaded.Malformed? {
      return Failure(500, UnreadableSave);
    }
    var save := loaded.save;
    ghost var step := CompleteHabit(save, habitId, now, completionId);
    var habitIndex := HabitIndex(save.habits, habitId);
    if habitIndex == -1 {
      return Failure(200, "Habit not found");
    }
    var habit := save.habits[habitIndex];
    if habit.lastCompleted.Some? && IsToday(habit.lastCompleted.value, now) {
      return Failure(200, "Habit already completed today");
    }
    assert step.Success?;
    var newStreak;
    if habit.lastCompleted.Some? && IsYesterday(habit.lastCompleted.value, now) {
      newStreak := habit.streak + 1;
    } else {
      newStreak := 1;
    }
    assert newStreak == NextStreak(habit, now);
    ghost var expected := step.value.save;
    save := save.(habits := save.habits[habitIndex := habit.(
      streak := newStreak,
      longestStreak := if habit.longestStreak > newStreak then habit.longestStreak else newStreak,
      lastCompleted := Some(now))]);
    assert save.habits == expected.habits;
    var coinsAwarded := habit.coinReward;
    save := save.(gameState := save.gameState.(coins := save.gameState.coins + coinsAwarded));
    save := save.(gameState := save.gameState.(lifetimeCoins := save.gameState.lifetimeCoins + coinsAwarded));
    assert save.gameState == expected.gameState;
    save := save.(completions := save.completions + [Completion(completionId, habitId, now, coinsAwarded)]);
    assert save.completions == expected.completions;
    store.WriteSaveData(save, now);
    r := Success(CompletionReply(coinsAwarded, newStreak, save.gameState.coins));
  }

  /** `delete`: id check, load, splice the habit out, write. */
  method DeleteAction(store: SaveStore, habitId: string, settings: SettingsConfig, now: Timestamp)
    returns (r: Outcome<()>)
    modifies store
    ensures habitId == [] ==>
              r == Failure(200, "Habit ID is required")
              && store.saveFile == old(store.saveFile) && store.backups == old(store.backups)
    ensures habitId != [] ==>
              match LoadOutcome(old(store.saveFile), settings, now)
              case Malformed(_) =>
                r == Failure(500, UnreadableSave) && store.AfterLoad(old(store.saveFile), old(store.backups), settings, now)
              case Loaded(s) =>
                store.Settled(old(store.saveFile), old(store.backups), settings, now, DeleteHabit(s, habitId), r)
  {
    if habitId == [] {
      return Failure(200, "Habit ID is required");
    }
    var loaded := store.LoadSave(settings, now);
    if loaded.Malformed? {
      return Failure(500, UnreadableSave);
    }
    var save := loaded.save;
    var habitIndex := HabitIndex(save.habits, habitId);
    if habitIndex == -1 {
      return Failure(200, "Habit not found");
    }
    save := save.(habits := save.habits[..habitIndex] + save.habits[habitIndex + 1..]);
    store.WriteSaveData(save, now);
    r := Success(());
  }
}

=== FILE: home.dfy ===
/**
 * The `complete` action of the home page (src/routes/+page.server.ts).  It
 * compares days by moving both moments back to midnight, changes the found
 * habit field by field, and answers with HTTP error statuses.  It is proved
 * to leave the same save as the habits page's `complete`.
 */
module HomePage {
  import opened Types
  import opened SaveJson
  import opened SaveManager
  import opened HabitsPage

  /** `setHours(0, 0, 0, 0)`: the start of the calendar day of `t`. */
  function Midnight(t: Timestamp): (m: Timestamp)
    ensures m <= t < m + MsPerDay
    ensures DayOf(m) == DayOf(t)
  {
    DayOf(t) * MsPerDay
  }

  /** Comparing midnights is comparing calendar days. */
  lemma MidnightsCompareDays(a: Timestamp, b: Timestamp)
    ensures Midnight(a) == Midnight(b) <==> DayOf(a) == DayOf(b)
    ensures Midnight(a) == Midnight(b) - MsPerDay <==> DayOf(a) == DayOf(b) - 1
  {
    assert Midnight(a) == DayOf(a) * MsPerDay && Midnight(b) == DayOf(b) * MsPerDay;
    assert Midnight(b) - MsPerDay == (DayOf(b) - 1) * MsPerDay;
  }

  datatype HomeReply = HomeReply(habitName: string, coinsAwarded: int, newStreak: int)

  /**
   * The home page's `complete` after the id check, on the loaded save: 404
   * for an unknown habit, 400 when already done today, otherwise exactly
   * the save the habits page would leave.
   */
  method CompleteOnHome(save: SaveData, habitId: string, now: Timestamp, completionId: string)
    returns (r: Outcome<Applied<HomeReply>>)
    ensures var page := CompleteHabit(save, habitId, now, completionId);
            && (r.Success? <==> page.Success?)
            && (r == Failure(404, "Habit not found") <==> page == Failure(200, "Habit not found"))
            && (r == Failure(400, "Already completed today") <==> page == Failure(200, "Habit already completed today"))
            && (r.Success? ==> r.value.save == page.value.save
                               && r.value.reply.coinsAwarded == page.value.reply.coinsAwarded
                               && r.value.reply.newStreak == page.value.reply.newStreak)
    ensures r.Success? ==> r.value.reply.habitName == save.habits[HabitIndex(save.habits, habitId)].name
  {
    ghost var page := CompleteHabit(save, habitId, now, completionId);
    var s := save;
    var i := HabitIndex(s.habits, habitId);
    if i == -1 {
      return Failure(404, "Habit not found");
    }
    var habit := s.habits[i];

    var today := Midnight(now);
    if habit.lastCompleted.Some? {
      var lastCompleted := Midnight(habit.lastCompleted.value);
      if lastCompleted == today {
        MidnightsCompareDays(habit.lastCompleted.value, now);
        return Failure(400, "Already completed today");
      }
    }

    var yesterday := today - MsPerDay;
    if habit.lastCompleted.Some? {
      var lastCompleted := Midnight(habit.lastCompleted.value);
      MidnightsCompareDays(habit.lastCompleted.value, now);
      if lastCompleted == yesterday {
        habit := habit.(streak := habit.streak + 1);
      } else {
        habit := habit.(streak := 1);
      }
    } else {
      habit := habit.(streak := 1);
    }
    assert page.Success? && habit.streak == NextStreak(save.habits[i], now);

    if habit.streak > habit.longestStreak {
      habit := habit.(longestStreak := habit.streak);
    }
    habit := habit.(lastCompleted := Some(now));

    var coinsAwarded := habit.coinReward;
    ghost var expected := page.value.save;
    s := s.(habits := s.habits[i := habit]);
    assert s.habits == expected.habits;
    s := s.(gameState := s.gameState.(coins := s.gameState.coins + coinsAwarded));
    s := s.(gameState := s.gameState.(lifetimeCoins := s.gameState.lifetimeCoins + coinsAwarded));
    assert s.gameState == expected.gameState;
    s := s.(completions := s.completions + [Completion(completionId, habit.id, habit.lastCompleted.value, coinsAwarded)]);
    assert s.completions == expected.completions;
    r := Success(Applied(s, HomeReply(habit.name, coinsAwarded, habit.streak)));
  }

  /** `complete` on the home page: 400 without an id, else load, complete, write. */
  method HomeCompleteAction(store: SaveStore, habitId: string, settings: SettingsConfig, now: Timestamp,
                            completionId: string)
    returns (r: Outcome<HomeReply>)
    modifies store
    ensures habitId == [] ==>
              r == Failure(400, "Habit ID required")
              && store.saveFile == old(store.saveFile) && store.backups == old(store.backups)
    ensures habitId != [] ==>
              match LoadOutcome(old(store.saveFile), settings, now)
              case Malformed(_) =>
                r == Failure(500, UnreadableSave) && store.AfterLoad(old(store.saveFile), old(store.backups), settings, now)
              case Loaded(s) =>
                var page := CompleteHabit(s, habitId, now, completionId);
                && (r.Success? <==> page.Success?)
                && (page == Failure(200, "Habit not found") ==> r == Failure(404, "Habit not found"))
                && (page == Failure(200, "Habit already completed today") ==> r == Failure(400, "Already completed today"))
                && (page.Success? ==>
                      r == Success(HomeReply(s.habits[HabitIndex(s.habits, habitId)].name,
                                             page.value.reply.coinsAwarded, page.value.reply.newStreak)))
                && (page.Failure? ==> r.Failure? && store.AfterLoad(old(store.saveFile), old(store.backups), settings, now))
                && (page.Success? ==> store.AfterLoadAndWrite(old(store.saveFile), old(store.backups), settings, now, page.value.save))
  {
    if habitId == [] {
      return Failure(400, "Habit ID required");
    }
    var loaded := store.LoadSave(settings, now);
    if loaded.Malformed? {
      return Failure(500, UnreadableSave);
    }
    var step := CompleteOnHome(loaded.save, habitId, now, completionId);
    if step.Failure? {
      return Failure(step.status, step.error);
    }
    store.WriteSaveData(step.value.save, now);
    r := Success(step.value.reply);
  }
}

=== FILE: idle.dfy ===
/**
 * The idle reward engine (src/lib/server/idle-calculator.ts): how much a
 * clinic earns while the player is away.  The clock is the parameter `now`;
 * settings and the upgrade catalog are immutable inputs.  Rates are exact
 * `real`s where the source uses floating point.
 */
module IdleCalculator {
  import opened Types
  import opened Text
  import opened Catalog

  /** The debounce: less than a minute away earns nothing. */
  const MinIdleMs: int := 60000
  const MsPerHour: int := 3600000
  const MsPerMinute: int := 60000

  /** What one purchased key adds to an effect: nothing when the catalog does not know it. */
  function KeyEffect(catalog: seq<Upgrade>, key: string, e: Effect): (v: real)
    ensures FindUpgrade(catalog, key).None? ==> v == 0.0
    ensures FindUpgrade(catalog, key).Some? ==> v == EffectOf(FindUpgrade(catalog, key).value, e)
  {
    match FindUpgrade(catalog, key)
    case None => 0.0
    case Some(u) => EffectOf(u, e)
  }

  predicate NonNegativeEffects(catalog: seq<Upgrade>) {
    forall i, e :: 0 <= i < |catalog| ==> EffectOf(catalog[i], e) >= 0.0
  }

  /** The sum of one effect over the purchased keys, in purchase order. */
  function EffectTotal(catalog: seq<Upgrade>, keys: seq<string>, e: Effect): (total: real)
    ensures NonNegativeEffects(catalog) ==> total >= 0.0
    decreases |keys|
  {
    if keys == [] then 0.0
    else EffectTotal(catalog, keys[..|keys| - 1], e) + KeyEffect(catalog, keys[|keys| - 1], e)
  }

  /** The number of habits with a running streak. */
  function ActiveStreaks(habits: seq<Habit>): (n: nat)
    ensures n <= |habits|
    ensures n == 0 <==> forall i :: 0 <= i < |habits| ==> habits[i].streak <= 0
    decreases |habits|
  {
    if habits == [] then 0
    else ActiveStreaks(habits[..|habits| - 1]) + (if habits[|habits| - 1].streak > 0 then 1 else 0)
  }

  function ClientsPerHour(settings: IdleSettings, catalog: seq<Upgrade>, keys: seq<string>): real {
    settings.baseClientsPerHour + EffectTotal(catalog, keys, ClientCapacity) * 0.1
  }

  function CoinsPerClient(settings: IdleSettings, catalog: seq<Upgrade>, keys: seq<string>): real {
    settings.baseCoinsPerClient + EffectTotal(catalog, keys, SatisfactionPercent) * 0.05
  }

  function TotalIncomeMultiplier(catalog: seq<Upgrade>, keys: seq<string>): real {
    1.0 + EffectTotal(catalog, keys, IncomeMultiplier)
  }

  /** The longest stretch of absence that is paid for. */
  function MaxElapsedMs(settings: IdleSettings): int {
    settings.maxIdleHours * MsPerHour
  }

  /** Clients and coins for `effective` milliseconds paid at the given rates. */
  function Payout(effective: int, capped: bool, clientsPerHour: real, coinsPerClient: real,
                  incomeMultiplier: real, activeStreaks: nat): IdleRewardResult
  {
    var clients := (clientsPerHour * (effective as real / MsPerHour as real)).Floor;
    var baseCoins := clients as real * coinsPerClient * incomeMultiplier;
    IdleRewardResult((baseCoins * (1.0 + activeStreaks as real * 0.01)).Floor, clients, effective, capped)
  }

  /** The reward for the time since `lastIdleTick`: the specification of `CalculateIdleRewards`. */
  function IdleRewards(save: SaveData, settings: IdleSettings, catalog: seq<Upgrade>, now: Timestamp)
    : (r: IdleRewardResult)
    ensures r.timeElapsedMs <= now - save.gameState.lastIdleTick
    ensures r.capped ==> r.timeElapsedMs == MaxElapsedMs(settings)
    ensures now - save.gameState.lastIdleTick < MinIdleMs ==> r.coins == 0 && r.clients == 0
  {
    var elapsed := now - save.gameState.lastIdleTick;
    if elapsed < MinIdleMs then IdleRewardResult(0, 0, elapsed, false)
    else
      var maxElapsed := MaxElapsedMs(settings);
      var keys := save.purchasedUpgrades;
      Payout(if elapsed < maxElapsed then elapsed else maxElapsed, elapsed > maxElapsed,
             ClientsPerHour(settings, catalog, keys), CoinsPerClient(settings, catalog, keys),
             TotalIncomeMultiplier(catalog, keys), ActiveStreaks(save.habits))
  }

  /**
   * `calculateIdleRewards`: debounce, cap, then one pass over the purchased
   * keys accumulating the three rates.
   */
  method CalculateIdleRewards(save: SaveData, settings: IdleSettings, catalog: seq<Upgrade>, now: Timestamp)
    returns (r: IdleRewardResult)
    ensures r == IdleRewards(save, settings, catalog, now)
  {
    var elapsed := now - save.gameState.lastIdleTick;
    if elapsed < MinIdleMs {
      return IdleRewardResult(0, 0, elapsed, false);
    }
    var maxElapsedMs := settings.maxIdleHours * MsPerHour;
    var effectiveElapsed := if elapsed < maxElapsedMs then elapsed else maxElapsedMs;
    var capped := elapsed > maxElapsedMs;

    var keys := save.purchasedUpgrades;
    var clientsPerHour := settings.baseClientsPerHour;
    var coinsPerClient := settings.baseCoinsPerClient;
    var incomeMultiplier := 1.0;
    for i := 0 to |keys|
      invariant clientsPerHour == ClientsPerHour(settings, catalog, keys[..i])
      invariant coinsPerClient == CoinsPerClient(settings, catalog, keys[..i])
      invariant incomeMultiplier == TotalIncomeMultiplier(catalog, keys[..i])
    {
      assert keys[..i + 1][..i] == keys[..i];
      var upgrade := FindUpgrade(catalog, keys[i]);
      if upgrade.None? {
        continue;
      }
      var effects := upgrade.value.effects;
      if effects.clientCapacity != 0.0 {
        clientsPerHour := clientsPerHour + effects.clientCapacity * 0.1;
      }
      if effects.satisfactionPercent != 0.0 {
        coinsPerClient := coinsPerClient + effects.satisfactionPercent * 0.05;
      }
      if effects.incomeMultiplier != 0.0 {
        incomeMultiplier := incomeMultiplier + effects.incomeMultiplier;
      }
    }
    assert keys[..|keys|] == keys;

    var activeStreaks := ActiveStreaks(save.habits);
    r := Payout(effectiveElapsed, capped, clientsPerHour, coinsPerClient, incomeMultiplier, activeStreaks);

  }

  // ---------------------------------------------------------------------------
  // Properties of the reward
  // ---------------------------------------------------------------------------

  /** Under a minute away: nothing earned, nothing capped, the raw elapsed time reported. */
  lemma IdleDebounce(save: SaveData, settings: IdleSettings, catalog: seq<Upgrade>, now: Timestamp)
    requires now - save.gameState.lastIdleTick < MinIdleMs
    ensures IdleRewards(save, settings, catalog, now)
            == IdleRewardResult(0, 0, now - save.gameState.lastIdleTick, false)
  {
  }

  /**
   * Past the debounce, the time paid for is the elapsed time cut at the cap,
   * and `capped` says exactly that some time was cut off.
   */
  lemma IdleCap(save: SaveData, settings: IdleSettings, catalog: seq<Upgrade>, now: Timestamp)
    requires now - save.gameState.lastIdleTick >= MinIdleMs
    ensures var r := IdleRewards(save, settings, catalog, now);
            var elapsed := now - save.gameState.lastIdleTick;
            && r.timeElapsedMs <= elapsed
            && r.timeElapsedMs <= MaxElapsedMs(settings)
            && (r.timeElapsedMs == elapsed || r.timeElapsedMs == MaxElapsedMs(settings))
            && (r.capped <==> r.timeElapsedMs < elapsed)
  {
  }

  /** Ten hours away with an eight-hour cap pays for exactly eight hours. */
  lemma IdleCapExample(save: SaveData, settings: IdleSettings, catalog: seq<Upgrade>)
    requires settings.maxIdleHours == 8
    ensures var r := IdleRewards(save, settings, catalog, save.gameState.lastIdleTick + 10 * MsPerHour);
            r.capped && r.timeElapsedMs == 8 * MsPerHour
  {
  }

  /**
   * Five clients an hour at two coins each, one upgrade adding 0.5 to the
   * income multiplier, no running streaks, two hours away: ten clients and
   * thirty coins.
   */
  lemma IdleRewardExample(save: SaveData, u: Upgrade)
    requires save.purchasedUpgrades == [u.key]
    requires u.effects == UpgradeEffect(0.0, 0.0, 0.5)
    requires forall i :: 0 <= i < |save.habits| ==> save.habits[i].streak <= 0
    ensures var settings := IdleSettings(5.0, 8, 2.0);
            var r := IdleRewards(save, settings, [u], save.gameState.lastIdleTick + 2 * MsPerHour);
            r == IdleRewardResult(30, 10, 2 * MsPerHour, false)
  {
    var keys := save.purchasedUpgrades;
    assert keys[..0] == [];
    assert EffectTotal([u], keys, ClientCapacity) == 0.0;
    assert EffectTotal([u], keys, SatisfactionPercent) == 0.0;
    assert EffectTotal([u], keys, IncomeMultiplier) == 0.5;
    assert ActiveStreaks(save.habits) == 0;
    assert (5.0 * (2 * MsPerHour) as real / MsPerHour as real).Floor == 10;
  }

  /** Effects add up over a concatenation of key lists. */
  lemma {:induction false} EffectTotalAppend(catalog: seq<Upgrade>, a: seq<string>, b: seq<string>, e: Effect)
    ensures EffectTotal(catalog, a + b, e) == EffectTotal(catalog, a, e) + EffectTotal(catalog, b, e)
    decreases |b|
  {
    if b != [] {
      var b' := b[..|b| - 1];
      assert (a + b)[..|a + b| - 1] == a + b';
      EffectTotalAppend(catalog, a, b', e);
    } else {
      assert a + b == a;
    }
  }

  /** Keys the catalog does not know change no rate. */
  lemma UnknownKeysIgnored(catalog: seq<Upgrade>, keys: seq<string>, unknown: seq<string>, e: Effect)
    requires forall i :: 0 <= i < |unknown| ==> FindUpgrade(catalog, unknown[i]).None?
    ensures EffectTotal(catalog, keys + unknown, e) == EffectTotal(catalog, keys, e)
  {
    EffectTotalAppend(catalog, keys, unknown, e);
    UnknownTotalZero(catalog, unknown, e);
  }

  lemma {:induction false} UnknownTotalZero(catalog: seq<Upgrade>, unknown: seq<string>, e: Effect)
    requires forall i :: 0 <= i < |unknown| ==> FindUpgrade(catalog, unknown[i]).None?
    ensures EffectTotal(catalog, unknown, e) == 0.0
    decreases |unknown|
  {
    if unknown != [] {
      UnknownTotalZero(catalog, unknown[..|unknown| - 1], e);
    }
  }

  /** A key's contribution comes from the first catalog entry carrying that key. */
  lemma FirstEntryCounts(catalog: seq<Upgrade>, i: nat, e: Effect)
    requires i < |catalog|
    requires forall j :: 0 <= j < i ==> catalog[j].key != catalog[i].key
    ensures KeyEffect(catalog, catalog[i].key, e) == EffectOf(catalog[i], e)
  {
    var found := FindUpgrade(catalog, catalog[i].key);
    assert found.Some?;
    var k :| 0 <= k < |catalog| && catalog[k] == found.value && found.value.key == catalog[i].key
             && forall j :: 0 <= j < k ==> catalog[j].key != catalog[i].key;
    assert k == i;
  }

  /**
   * With non-negative rates and effects, a reward is never negative, so
   * settling it never lowers the balance.
   */
  lemma IdleRewardNonNegative(save: SaveData, settings: IdleSettings, catalog: seq<Upgrade>, now: Timestamp)
    requires settings.baseClientsPerHour >= 0.0 && settings.baseCoinsPerClient >= 0.0
    requires settings.maxIdleHours >= 0
    requires NonNegativeEffects(catalog)
    ensures IdleRewards(save, settings, catalog, now).coins >= 0
    ensures IdleRewards(save, settings, catalog, now).clients >= 0
  {
    var elapsed := now - save.gameState.lastIdleTick;
    if elapsed >= MinIdleMs {
      var keys := save.purchasedUpgrades;
      var maxElapsed := MaxElapsedMs(settings);
      PayoutNonNegative(if elapsed < maxElapsed then elapsed else maxElapsed, elapsed > maxElapsed,
                        ClientsPerHour(settings, catalog, keys), CoinsPerClient(settings, catalog, keys),
                        TotalIncomeMultiplier(catalog, keys), ActiveStreaks(save.habits));
    }
  }

  lemma PayoutNonNegative(effective: int, capped: bool, clientsPerHour: real, coinsPerClient: real,
                          incomeMultiplier: real, activeStreaks: nat)
    requires effective >= 0 && clientsPerHour >= 0.0 && coinsPerClient >= 0.0 && incomeMultiplier >= 0.0
    ensures Payout(effective, capped, clientsPerHour, coinsPerClient, incomeMultiplier, activeStreaks).clients >= 0
    ensures Payout(effective, capped, clientsPerHour, coinsPerClient, incomeMultiplier, activeStreaks).coins >= 0
  {
    var hours := effective as real / MsPerHour as real;
    ProductNonNegative(clientsPerHour, hours);
    var clients := (clientsPerHour * hours).Floor;
    ProductNonNegative(clients as real, coinsPerClient);
    ProductNonNegative(clients as real * coinsPerClient, incomeMultiplier);
    ProductNonNegative(clients as real * coinsPerClient * incomeMultiplier, 1.0 + activeStreaks as real * 0.01);
  }

  lemma ProductNonNegative(x: real, y: real)
    requires x >= 0.0 && y >= 0.0
    ensures x * y >= 0.0
  {
  }

  /** Staying away longer never brings in fewer clients, for non-negative rates. */
  lemma IdleClientsMonotone(save: SaveData, settings: IdleSettings, catalog: seq<Upgrade>, now1: Timestamp, now2: Timestamp)
    requires MinIdleMs <= now1 - save.gameState.lastIdleTick && now1 <= now2
    requires ClientsPerHour(settings, catalog, save.purchasedUpgrades) >= 0.0
    ensures IdleRewards(save, settings, catalog, now1).clients <= IdleRewards(save, settings, catalog, now2).clients
  {
    var cph := ClientsPerHour(settings, catalog, save.purchasedUpgrades);
    var e1 := IdleRewards(save, settings, catalog, now1).timeElapsedMs;
    var e2 := IdleRewards(save, settings, catalog, now2).timeElapsedMs;
    assert e1 <= e2;
    var h1, h2 := e1 as real / MsPerHour as real, e2 as real / MsPerHour as real;
    assert h1 <= h2;
    assert IdleRewards(save, settings, catalog, now1).clients == (cph * h1).Floor;
    assert IdleRewards(save, settings, catalog, now2).clients == (cph * h2).Floor;
    ProductMonotone(cph, h1, h2);
  }

  lemma ProductMonotone(c: real, x: real, y: real)
    requires c >= 0.0 && x <= y
    ensures (c * x).Floor <= (c * y).Floor
  {
    assert c * x <= c * y by {
      assert c * (y - x) >= 0.0 by { ProductNonNegative(c, y - x); }
    }
  }

  // ---------------------------------------------------------------------------
  // formatIdleTime
  // ---------------------------------------------------------------------------

  /**
   * JavaScript's `%`: the remainder takes the sign of the dividend; a
   * negative dividend gives the negated remainder of its magnitude.
   */
  function TruncMod(a: int, d: int): (r: int)
    requires d > 0
    ensures -d < r < d
    ensures a >= 0 ==> r == a % d
    ensures a < 0 ==> r <= 0 && r == -((-a) % d)
  {
    if a >= 0 then a % d else -((-a) % d)
  }

  /** Negating the dividend negates the remainder, as JavaScript's `%` does. */
  lemma TruncModOdd(a: int, d: int)
    requires d > 0
    ensures TruncMod(-a, d) == -TruncMod(a, d)
  {
  }

  /** `Math.floor(ms / 3600000)`. */
  function IdleHours(ms: int): int {
    ms / MsPerHour
  }

  /** `Math.floor((ms % 3600000) / 60000)`: the minutes past the whole hours. */
  function IdleMinutes(ms: int): (m: int)
    ensures -60 <= m < 60
    ensures ms >= 0 ==> 0 <= m
  {
    TruncMod(ms, MsPerHour) / MsPerMinute
  }

  /** "`n` `word`", with an "s" unless `n` is 1. */
  function Unit(n: int, word: string): string {
    IntToString(n) + " " + word + (if n != 1 then "s" else "")
  }

  /** `formatIdleTime`: "H hour(s) and M minute(s)", leaving out a part that is zero. */
  function FormatIdleTime(ms: int): (r: string)
    ensures var lead := IntToString(if IdleHours(ms) == 0 then IdleMinutes(ms) else IdleHours(ms));
            |lead| <= |r| && r[..|lead|] == lead
  {
    var hours := IdleHours(ms);
    var minutes := IdleMinutes(ms);
    if hours == 0 then Unit(minutes, "minute")
    else if minutes == 0 then Unit(hours, "hour")
    else Unit(hours, "hour") + " and " + Unit(minutes, "minute")
  }

  /** For a non-negative duration, the hours and minutes shown are its whole minutes. */
  lemma IdleTimeParts(ms: int)
    requires ms >= 0
    ensures IdleHours(ms) >= 0 && 0 <= IdleMinutes(ms) < 60
    ensures IdleHours(ms) * 60 + IdleMinutes(ms) == ms / MsPerMinute
  {
    var h, rest := ms / MsPerHour, ms % MsPerHour;
    assert ms == h * MsPerHour + rest;
    assert rest / MsPerMinute * MsPerMinute <= rest < rest / MsPerMinute * MsPerMinute + MsPerMinute;
    assert ms == (h * 60 + rest / MsPerMinute) * MsPerMinute + rest % MsPerMinute;
  }

  /** A unit is singular exactly when its count is 1. */
  lemma UnitSingularIffOne(n: int, word: string)
    ensures Unit(n, word) == IntToString(n) + " " + word <==> n == 1
  {
  }

  /** Under an hour, only minutes are shown, and a single minute is singular. */
  lemma FormatMinutesOnly()
    ensures FormatIdleTime(0) == "0 minutes"
    ensures FormatIdleTime(MsPerMinute) == "1 minute"
  {
  }

  /** Whole hours show no minutes. */
  lemma FormatHoursOnly()
    ensures FormatIdleTime(MsPerHour) == "1 hour"
    ensures FormatIdleTime(2 * MsPerHour) == "2 hours"
  {
  }

  lemma FormatHoursAndMinutes()
    ensures FormatIdleTime(MsPerHour + 30 * MsPerMinute) == "1 hour and 30 minutes"
  {
    assert IdleHours(MsPerHour + 30 * MsPerMinute) == 1;
    assert IdleMinutes(MsPerHour + 30 * MsPerMinute) == 30;
    assert IntToString(30) == "30" by {
      assert NatToString(30) == NatToString(3) + [DigitChar(0)];
    }
  }
}

=== FILE: layout.dfy ===
/**
 * Idle settlement on every page load (src/routes/+layout.server.ts): the
 * reward since `lastIdleTick` is paid into the save, and the tick moved to
 * now, only when it is worth at least one coin.
 */
module Layout {
  import opened Types
  import opened Catalog
  import opened SaveJson
  import opened SaveManager
  import opened IdleCalculator

  /** The save after the reward is applied: only a reward of at least one coin is paid. */
  function Settle(save: SaveData, reward: IdleRewardResult, now: Timestamp): (after: SaveData)
    ensures after.gameState.coins - save.gameState.coins == after.gameState.lifetimeCoins - save.gameState.lifetimeCoins
    ensures after.gameState.coins >= save.gameState.coins
  {
    if reward.coins > 0 then
      var gs := save.gameState;
      save.(gameState := gs.(coins := gs.coins + reward.coins,
                             lifetimeCoins := gs.lifetimeCoins + reward.coins,
                             clientsSeen := gs.clientsSeen + reward.clients,
                             lastIdleTick := now))
    else save
  }

  /**
   * A paid reward goes to the balance and the lifetime total alike, the
   * clients to the count, and the tick moves to now; an unpaid one changes
   * nothing.  Habits, completions, upgrades and claims are never touched.
   */
  lemma SettleEffect(save: SaveData, reward: IdleRewardResult, now: Timestamp)
    ensures var after := Settle(save, reward, now);
            && after.habits == save.habits && after.completions == save.completions
            && after.purchasedUpgrades == save.purchasedUpgrades
            && after.claimedStreakRewards == save.claimedStreakRewards
            && after.gameState.createdAt == save.gameState.createdAt
            && after.gameState.lifetimeCoins - after.gameState.coins
               == save.gameState.lifetimeCoins - save.gameState.coins
            && (reward.coins > 0 ==>
                  && after.gameState.coins == save.gameState.coins + reward.coins
                  && after.gameState.clientsSeen == save.gameState.clientsSeen + reward.clients
                  && after.gameState.lastIdleTick == now
                  && after.gameState.createdAt == save.gameState.createdAt
                  && after.version == save.version && after.exportedAt == save.exportedAt)
            && (reward.coins <= 0 ==> after == save)
  {
  }

  /** When the clock has not gone back, settling never moves the tick backwards nor lowers the balance. */
  lemma SettleMonotone(save: SaveData, settings: IdleSettings, catalog: seq<Upgrade>, now: Timestamp)
    requires now >= save.gameState.lastIdleTick
    ensures var after := Settle(save, IdleRewards(save, settings, catalog, now), now);
            && after.gameState.lastIdleTick >= save.gameState.lastIdleTick
            && after.gameState.coins >= save.gameState.coins
            && after.gameState.lifetimeCoins >= save.gameState.lifetimeCoins
  {
  }

  /**
   * No double payment: once a reward has been paid, loading again within a
   * minute pays nothing; and an unpaid reward leaves the save as it was.
   */
  lemma SettleOnce(save: SaveData, settings: IdleSettings, catalog: seq<Upgrade>, now: Timestamp, later: Timestamp)
    requires IdleRewards(save, settings, catalog, now).coins > 0
    requires now <= later < now + MinIdleMs
    ensures var after := Settle(save, IdleRewards(save, settings, catalog, now), now);
            IdleRewards(after, settings, catalog, later).coins == 0
  {
    var after := Settle(save, IdleRewards(save, settings, catalog, now), now);
    assert after.gameState.lastIdleTick == now;
    IdleDebounce(after, settings, catalog, later);
  }

  /** What the layout hands to every page: the (settled) save and the reward computed. */
  datatype LayoutData = LayoutData(save: SaveData, idleRewards: IdleRewardResult)

  /** The layout's `load`: load, compute the reward, pay and write it when worth a coin. */
  method LayoutLoad(store: SaveStore, settings: SettingsConfig, catalog: seq<Upgrade>, now: Timestamp)
    returns (r: Outcome<LayoutData>)
    modifies store
    ensures match LoadOutcome(old(store.saveFile), settings, now)
            case Malformed(_) =>
              r == Failure(500, UnreadableSave) && store.AfterLoad(old(store.saveFile), old(store.backups), settings, now)
            case Loaded(s) =>
              var reward := IdleRewards(s, settings.idleSettings, catalog, now);
              var settled := Settle(s, reward, now);
              && (reward.coins > 0 ==>
                    && r == Success(LayoutData(settled.(exportedAt := now), reward))
                    && store.AfterLoadAndWrite(old(store.saveFile), old(store.backups), settings, now, settled))
              && (reward.coins <= 0 ==>
                    && r == Success(LayoutData(s, reward))
                    && store.AfterLoad(old(store.saveFile), old(store.backups), settings, now))
  {
    var loaded := store.LoadSave(settings, now);
    if loaded.Malformed? {
      return Failure(500, UnreadableSave);
    }
    var save := loaded.save;
    var idleRewards := CalculateIdleRewards(save, settings.idleSettings, catalog, now);
    if idleRewards.coins > 0 {
      ghost var expected := Settle(save, idleRewards, now);
      save := save.(gameState := save.gameState.(coins := save.gameState.coins + idleRewards.coins));
      save := save.(gameState := save.gameState.(lifetimeCoins := save.gameState.lifetimeCoins + idleRewards.coins));
      save := save.(gameState := save.gameState.(clientsSeen := save.gameState.clientsSeen + idleRewards.clients));
      save := save.(gameState := save.gameState.(lastIdleTick := now));
      assert save.gameState == expected.gameState;
      assert save == expected;
      store.WriteSaveData(save, now);
      save := save.(exportedAt := now);
    }
    r := Success(LayoutData(save, idleRewards));
  }
}

=== FILE: lists.dfy ===
/** Sequence helpers shared by the route handlers and the idle engine. */
module Lists {

  /**
   * `Array.prototype.findIndex` / `find`: the index of the first element
   * satisfying `p`, or -1 when there is none.
   */
  function IndexOfFirst<T>(xs: seq<T>, p: T -> bool): (i: int)
    ensures -1 <= i < |xs|
    ensures 0 <= i ==> p(xs[i]) && forall j :: 0 <= j < i ==> !p(xs[j])
    ensures i == -1 <==> forall j :: 0 <= j < |xs| ==> !p(xs[j])
  {
    if xs == [] then -1
    else if p(xs[0]) then 0
    else
      var k := IndexOfFirst(xs[1..], p);
      if k < 0 then -1 else k + 1
  }

  /** Every element occurs at most once. */
  predicate NoDuplicates<T(==)>(xs: seq<T>) {
    forall i, j :: 0 <= i < j < |xs| ==> xs[i] != xs[j]
  }

  /** `xs` with the element at index `i` spliced out (`splice(i, 1)`). */
  function RemoveAt<T>(xs: seq<T>, i: nat): (r: seq<T>)
    requires i < |xs|
    ensures |r| == |xs| - 1
    ensures forall j :: 0 <= j < i ==> r[j] == xs[j]
    ensures forall j :: i <= j < |r| ==> r[j] == xs[j + 1]
  {
    xs[..i] + xs[i + 1..]
  }
}

=== FILE: savejson.dfy ===
/**
 * The persisted form of a save: a JSON document.  `ValidateSave` is the
 * shallow structural check `validateSave` (src/lib/server/save-manager.ts)
 * applies to untrusted imports; `EncodeSave`/`DecodeSave` relate the typed
 * records of module Types to the documents the store holds.
 *
 * Timestamps are persisted as the decimal text of their millisecond value,
 * standing in for the ISO-8601 text the source writes.
 */
module SaveJson {
  import opened Types
  import opened Text

  datatype Json =
    | JNull
    | JBool(b: bool)
    | JNum(n: real)
    | JStr(s: string)
    | JArr(items: seq<Json>)
    | JObj(fields: map<string, Json>)

  // ---------------------------------------------------------------------------
  // JavaScript property access and `typeof`
  // ---------------------------------------------------------------------------

  /**
   * `v[key]` on a parsed JSON value; `None` is `undefined`.  None of the
   * property names the core reads is a property of an array.
   */
  function Prop(v: Json, key: string): Option<Json> {
    if v.JObj? && key in v.fields then Some(v.fields[key]) else None
  }

  /** `typeof v`, with `None` standing for `undefined`. */
  function TypeOf(v: Option<Json>): string {
    match v
    case None => "undefined"
    case Some(JNull) => "object"
    case Some(JBool(_)) => "boolean"
    case Some(JNum(_)) => "number"
    case Some(JStr(_)) => "string"
    case Some(JArr(_)) => "object"
    case Some(JObj(_)) => "object"
  }

  /** `Array.isArray(v)`. */
  predicate IsArray(v: Option<Json>) {
    v.Some? && v.value.JArr?
  }

  /** A non-null object in the JavaScript sense: arrays included. */
  predicate IsObjectValue(v: Option<Json>) {
    v.Some? && (v.value.JObj? || v.value.JArr?)
  }

  predicate IsNumberValue(v: Option<Json>) { v.Some? && v.value.JNum? }

  predicate IsStringValue(v: Option<Json>) { v.Some? && v.value.JStr? }

  /** The conditions of the shallow check, stated field by field. */
  predicate HasSaveShape(data: Json) {
    && IsObjectValue(Some(data))
    && IsNumberValue(Prop(data, "version"))
    && IsStringValue(Prop(data, "exportedAt"))
    && IsObjectValue(Prop(data, "gameState"))
    && IsArray(Prop(data, "habits"))
    && IsArray(Prop(data, "completions"))
    && IsArray(Prop(data, "purchasedUpgrades"))
    && IsObjectValue(Prop(data, "claimedStreakRewards"))
    && var gs := Prop(data, "gameState").value;
    && IsNumberValue(Prop(gs, "coins"))
    && IsNumberValue(Prop(gs, "lifetimeCoins"))
    && IsNumberValue(Prop(gs, "clientsSeen"))
    && IsStringValue(Prop(gs, "lastIdleTick"))
    && IsStringValue(Prop(gs, "createdAt"))
  }

  /**
   * `validateSave`: the early-return chain of the source, written with
   * `typeof`.  It accepts exactly the documents of `HasSaveShape`, and every
   * accepted document is a JSON object (an array never is).
   */
  function ValidateSave(data: Json): (ok: bool)
    ensures ok <==> HasSaveShape(data)
    ensures ok ==> data.JObj?
  {
    if TypeOf(Some(data)) != "object" || data == JNull then false
    else if TypeOf(Prop(data, "version")) != "number" then false
    else if TypeOf(Prop(data, "exportedAt")) != "string" then false
    else if TypeOf(Prop(data, "gameState")) != "object" || Prop(data, "gameState") == Some(JNull) then false
    else if !IsArray(Prop(data, "habits")) then false
    else if !IsArray(Prop(data, "completions")) then false
    else if !IsArray(Prop(data, "purchasedUpgrades")) then false
    else if TypeOf(Prop(data, "claimedStreakRewards")) != "object"
      || Prop(data, "claimedStreakRewards") == Some(JNull) then false
    else
      var gs := Prop(data, "gameState").value;
      if TypeOf(Prop(gs, "coins")) != "number" then false
      else if TypeOf(Prop(gs, "lifetimeCoins")) != "number" then false
      else if TypeOf(Prop(gs, "clientsSeen")) != "number" then false
      else if TypeOf(Prop(gs, "lastIdleTick")) != "string" then false
      else if TypeOf(Prop(gs, "createdAt")) != "string" then false
      else true
  }

  // ---------------------------------------------------------------------------
  // Typed records to documents and back
  // ---------------------------------------------------------------------------

  function IntJson(n: int): Json { JNum(n as real) }

  function TimeJson(t: Timestamp): Json { JStr(IntToString(t)) }

  function StrJson(s: string): Json { JStr(s) }

  function DecodeInt(v: Json): Option<int> {
    match v
    case JNum(n) => if n.Floor as real == n then Some(n.Floor) else None
    case _ => None
  }

  function DecodeStr(v: Json): Option<string> {
    match v
    case JStr(s) => Some(s)
    case _ => None
  }

  function StringProp(v: Json, key: string): Option<string> {
    var p :- Prop(v, key);
    DecodeStr(p)
  }

  function IntProp(v: Json, key: string): Option<int> {
    var p :- Prop(v, key);
    DecodeInt(p)
  }

  function TimeProp(v: Json, key: string): Option<Timestamp> {
    var s :- StringProp(v, key);
    ParseInt(s)
  }

  function ArrayProp(v: Json, key: string): Option<seq<Json>> {
    match Prop(v, key)
    case Some(JArr(items)) => Some(items)
    case _ => None
  }

  function EncodeSeq<T>(xs: seq<T>, enc: T -> Json): (r: seq<Json>)
    ensures |r| == |xs|
  {
    if xs == [] then [] else [enc(xs[0])] + EncodeSeq(xs[1..], enc)
  }

  /** Decodes every element, failing when any element fails. */
  function DecodeSeq<T>(vs: seq<Json>, dec: Json -> Option<T>): Option<seq<T>> {
    if vs == [] then Some([])
    else
      var x :- dec(vs[0]);
      var rest :- DecodeSeq(vs[1..], dec);
      Some([x] + rest)
  }

  function RecurrenceName(r: Recurrence): string {
    match r
    case Daily => "daily"
    case Weekly => "weekly"
    case OneOff => "one-off"
  }

  function ParseRecurrence(s: string): Option<Recurrence> {
    if s == "daily" then Some(Daily)
    else if s == "weekly" then Some(Weekly)
    else if s == "one-off" then Some(OneOff)
    else None
  }

  function EncodeHabit(h: Habit): Json {
    JObj(map[
      "id" := JStr(h.id),
      "name" := JStr(h.name),
      "coinReward" := IntJson(h.coinReward),
      "recurrence" := JStr(RecurrenceName(h.recurrence)),
      "streak" := IntJson(h.streak),
      "longestStreak" := IntJson(h.longestStreak),
      "lastCompleted" := (match h.lastCompleted case Some(t) => TimeJson(t) case None => JNull),
      "createdAt" := TimeJson(h.createdAt)])
  }

  function LastCompletedProp(v: Json): Option<Option<Timestamp>> {
    match Prop(v, "lastCompleted")
    case Some(JNull) => Some(None)
    case Some(JStr(s)) => (match ParseInt(s) case Some(t) => Some(Some(t)) case None => None)
    case _ => None
  }

  function DecodeHabit(v: Json): Option<Habit> {
    var id, name, coinReward := StringProp(v, "id"), StringProp(v, "name"), IntProp(v, "coinReward");
    var recurrenceName, streak := StringProp(v, "recurrence"), IntProp(v, "streak");
    var longestStreak, lastCompleted := IntProp(v, "longestStreak"), LastCompletedProp(v);
    var createdAt := TimeProp(v, "createdAt");
    if && id.Some? && name.Some? && coinReward.Some? && recurrenceName.Some?
       && ParseRecurrence(recurrenceName.value).Some? && streak.Some? && longestStreak.Some?
       && lastCompleted.Some? && createdAt.Some?
    then
      Some(Habit(id.value, name.value, coinReward.value, ParseRecurrence(recurrenceName.value).value,
                 streak.value, longestStreak.value, lastCompleted.value, createdAt.value))
    else None
  }

  function EncodeCompletion(c: Completion): Json {
    JObj(map[
      "id" := JStr(c.id),
      "habitId" := JStr(c.habitId),
      "completedAt" := TimeJson(c.completedAt),
      "coinsAwarded" := IntJson(c.coinsAwarded)])
  }

  function DecodeCompletion(v: Json): Option<Completion> {
    var id :- StringProp(v, "id");
    var habitId :- StringProp(v, "habitId");
    var completedAt :- TimeProp(v, "completedAt");
    var coinsAwarded :- IntProp(v, "coinsAwarded");
    Some(Completion(id, habitId, completedAt, coinsAwarded))
  }

  function EncodeGameState(g: GameState): Json {
    JObj(map[
      "coins" := IntJson(g.coins),
      "lifetimeCoins" := IntJson(g.lifetimeCoins),
      "clientsSeen" := IntJson(g.clientsSeen),
      "lastIdleTick" := TimeJson(g.lastIdleTick),
      "createdAt" := TimeJson(g.createdAt)])
  }

  function DecodeGameState(v: Json): Option<GameState> {
    var coins :- IntProp(v, "coins");
    var lifetimeCoins :- IntProp(v, "lifetimeCoins");
    var clientsSeen :- IntProp(v, "clientsSeen");
    var lastIdleTick :- TimeProp(v, "lastIdleTick");
    var createdAt :- TimeProp(v, "createdAt");
    Some(GameState(coins, lifetimeCoins, clientsSeen, lastIdleTick, createdAt))
  }

  function EncodeClaimList(days: seq<int>): Json { JArr(EncodeSeq(days, IntJson)) }

  function DecodeClaimList(v: Json): Option<seq<int>> {
    match v
    case JArr(items) => DecodeSeq(items, DecodeInt)
    case _ => None
  }

  function EncodeClaims(m: map<string, seq<int>>): Json {
    JObj(map k | k in m :: EncodeClaimList(m[k]))
  }

  function DecodeClaims(v: Json): Option<map<string, seq<int>>> {
    match v
    case JObj(fields) =>
      if forall k :: k in fields ==> DecodeClaimList(fields[k]).Some? then
        Some(map k | k in fields :: DecodeClaimList(fields[k]).value)
      else None
    case _ => None
  }

  /** The document `JSON.stringify` writes for a save. */
  function EncodeSave(s: SaveData): Json {
    JObj(map[
      "version" := IntJson(s.version),
      "exportedAt" := TimeJson(s.exportedAt),
      "gameState" := EncodeGameState(s.gameState),
      "habits" := JArr(EncodeSeq(s.habits, EncodeHabit)),
      "completions" := JArr(EncodeSeq(s.completions, EncodeCompletion)),
      "purchasedUpgrades" := JArr(EncodeSeq(s.purchasedUpgrades, StrJson)),
      "claimedStreakRewards" := EncodeClaims(s.claimedStreakRewards)])
  }

  /** The save a document denotes, when every record in it is well formed. */
  function DecodeSave(v: Json): Option<SaveData> {
    var version :- IntProp(v, "version");
    var exportedAt :- TimeProp(v, "exportedAt");
    var gameStateDoc :- Prop(v, "gameState");
    var gameState :- DecodeGameState(gameStateDoc);
    var habitDocs :- ArrayProp(v, "habits");
    var habits :- DecodeSeq(habitDocs, DecodeHabit);
    var completionDocs :- ArrayProp(v, "completions");
    var completions :- DecodeSeq(completionDocs, DecodeCompletion);
    var keyDocs :- ArrayProp(v, "purchasedUpgrades");
    var purchased :- DecodeSeq(keyDocs, DecodeStr);
    var claimsDoc :- Prop(v, "claimedStreakRewards");
    var claims :- DecodeClaims(claimsDoc);
    Some(SaveData(version, exportedAt, gameState, habits, completions, purchased, claims))
  }

  // ---------------------------------------------------------------------------
  // Round trips
  // ---------------------------------------------------------------------------

  lemma {:induction false} DecodeSeqRoundTrip<T>(xs: seq<T>, enc: T -> Json, dec: Json -> Option<T>)
    requires forall x :: x in xs ==> dec(enc(x)) == Some(x)
    ensures DecodeSeq(EncodeSeq(xs, enc), dec) == Some(xs)
    decreases |xs|
  {
    if xs != [] {
      DecodeSeqRoundTrip(xs[1..], enc, dec);
      assert xs == [xs[0]] + xs[1..];
    }
  }

  lemma IntRoundTrip(n: int)
    ensures DecodeInt(IntJson(n)) == Some(n)
  {
  }

  lemma HabitTextFields(h: Habit)
    ensures StringProp(EncodeHabit(h), "id") == Some(h.id)
    ensures StringProp(EncodeHabit(h), "name") == Some(h.name)
    ensures StringProp(EncodeHabit(h), "recurrence") == Some(RecurrenceName(h.recurrence))
  {
  }

  lemma HabitNumberFields(h: Habit)
    ensures IntProp(EncodeHabit(h), "coinReward") == Some(h.coinReward)
    ensures IntProp(EncodeHabit(h), "streak") == Some(h.streak)
    ensures IntProp(EncodeHabit(h), "longestStreak") == Some(h.longestStreak)
  {
  }

  lemma HabitTimeFields(h: Habit)
    ensures TimeProp(EncodeHabit(h), "createdAt") == Some(h.createdAt)
    ensures LastCompletedProp(EncodeHabit(h)) == Some(h.lastCompleted)
  {
    ParseIntRoundTrip(h.createdAt);
    if h.lastCompleted.Some? {
      ParseIntRoundTrip(h.lastCompleted.value);
    }
  }

  lemma HabitRoundTrip(h: Habit)
    ensures DecodeHabit(EncodeHabit(h)) == Some(h)
  {
    HabitTextFields(h);
    HabitNumberFields(h);
    HabitTimeFields(h);
    assert ParseRecurrence(RecurrenceName(h.recurrence)) == Some(h.recurrence);
  }

  lemma CompletionRoundTrip(c: Completion)
    ensures DecodeCompletion(EncodeCompletion(c)) == Some(c)
  {
    ParseIntRoundTrip(c.completedAt);
  }

  lemma GameStateRoundTrip(g: GameState)
    ensures DecodeGameState(EncodeGameState(g)) == Some(g)
  {
    ParseIntRoundTrip(g.lastIdleTick);
    ParseIntRoundTrip(g.createdAt);
  }

  lemma ClaimsRoundTrip(m: map<string, seq<int>>)
    ensures DecodeClaims(EncodeClaims(m)) == Some(m)
  {
    var fields := map k | k in m :: EncodeClaimList(m[k]);
    forall k | k in fields
      ensures DecodeClaimList(fields[k]) == Some(m[k])
    {
      forall x | x in m[k] ensures DecodeInt(IntJson(x)) == Some(x) {
        IntRoundTrip(x);
      }
      DecodeSeqRoundTrip(m[k], IntJson, DecodeInt);
    }
    assert (map k | k in fields :: DecodeClaimList(fields[k]).value) == m;
  }

  /** Every save survives being written and read back unchanged. */
  lemma SaveRoundTrip(s: SaveData)
    ensures DecodeSave(EncodeSave(s)) == Some(s)
  {
    ParseIntRoundTrip(s.exportedAt);
    GameStateRoundTrip(s.gameState);
    forall h | h in s.habits ensures DecodeHabit(EncodeHabit(h)) == Some(h) {
      HabitRoundTrip(h);
    }
    DecodeSeqRoundTrip(s.habits, EncodeHabit, DecodeHabit);
    forall c | c in s.completions ensures DecodeCompletion(EncodeCompletion(c)) == Some(c) {
      CompletionRoundTrip(c);
    }
    DecodeSeqRoundTrip(s.completions, EncodeCompletion, DecodeCompletion);
    DecodeSeqRoundTrip(s.purchasedUpgrades, StrJson, DecodeStr);
    ClaimsRoundTrip(s.claimedStreakRewards);
    SaveScalarFields(s);
    SaveCollectionFields(s);
  }

  lemma SaveScalarFields(s: SaveData)
    ensures IntProp(EncodeSave(s), "version") == Some(s.version)
    ensures TimeProp(EncodeSave(s), "exportedAt") == Some(s.exportedAt)
    ensures Prop(EncodeSave(s), "gameState") == Some(EncodeGameState(s.gameState))
  {
    ParseIntRoundTrip(s.exportedAt);
  }

  lemma SaveCollectionFields(s: SaveData)
    ensures ArrayProp(EncodeSave(s), "habits") == Some(EncodeSeq(s.habits, EncodeHabit))
    ensures ArrayProp(EncodeSave(s), "completions") == Some(EncodeSeq(s.completions, EncodeCompletion))
    ensures ArrayProp(EncodeSave(s), "purchasedUpgrades") == Some(EncodeSeq(s.purchasedUpgrades, StrJson))
    ensures Prop(EncodeSave(s), "claimedStreakRewards") == Some(EncodeClaims(s.claimedStreakRewards))
  {
  }

  // ---------------------------------------------------------------------------
  // What the shallow check does and does not see
  // ---------------------------------------------------------------------------

  /** A document whose records are all well formed passes the shallow check. */
  lemma DecodableSavesValidate(v: Json)
    requires DecodeSave(v).Some?
    ensures ValidateSave(v)
  {
    var gs := Prop(v, "gameState").value;
    assert DecodeGameState(gs).Some?;
    assert IntProp(gs, "coins").Some? && IntProp(gs, "lifetimeCoins").Some?;
    assert DecodeClaims(Prop(v, "claimedStreakRewards").value).Some?;
  }

  /** In particular every save the model writes passes it. */
  lemma EncodedSavesValidate(s: SaveData)
    ensures ValidateSave(EncodeSave(s))
  {
    SaveRoundTrip(s);
    DecodableSavesValidate(EncodeSave(s));
  }

  /**
   * `validateSave` never looks inside the three arrays: replacing their contents
   * by anything at all keeps an accepted document accepted.
   */
  lemma ArrayElementsNotInspected(data: Json, habits: seq<Json>, completions: seq<Json>, keys: seq<Json>)
    requires ValidateSave(data)
    ensures ValidateSave(JObj(data.fields["habits" := JArr(habits)]
                                          ["completions" := JArr(completions)]
                                          ["purchasedUpgrades" := JArr(keys)]))
  {
  }

  /**
   * `validateSave` does not look at numeric ranges either: any number,
   * negative or fractional, passes as the coin balance.
   */
  lemma CoinRangeNotInspected(data: Json, coins: real)
    requires ValidateSave(data)
    ensures Prop(data, "gameState").value.JObj?
    ensures var gs := Prop(data, "gameState").value;
            ValidateSave(JObj(data.fields["gameState" := JObj(gs.fields["coins" := JNum(coins)])]))
  {
  }

  /** An array is accepted where the claimed-rewards mapping belongs. */
  lemma ArrayAcceptedAsClaims(data: Json, items: seq<Json>)
    requires ValidateSave(data)
    ensures ValidateSave(JObj(data.fields["claimedStreakRewards" := JArr(items)]))
  {
  }

  /** `validateSave` does not look at the version's value, only that it is a number. */
  lemma VersionValueNotInspected(data: Json, version: real)
    requires ValidateSave(data)
    ensures ValidateSave(JObj(data.fields["version" := JNum(version)]))
  {
  }

  /**
   * `validateSave` is strictly weaker than decoding: it accepts a fractional
   * version number, which no save carries.
   */
  lemma ShallowValidationGap()
    ensures exists v :: ValidateSave(v) && DecodeSave(v).None?
  {
    var doc := EncodeSave(SaveData(1, 0, GameState(0, 0, 0, 0, 0), [], [], [], map[]));
    EncodedSavesValidate(SaveData(1, 0, GameState(0, 0, 0, 0, 0), [], [], [], map[]));
    var v := JObj(doc.fields["version" := JNum(1.5)]);
    VersionValueNotInspected(doc, 1.5);
    assert IntProp(v, "version").None?;
  }
}

=== FILE: savemanager.dfy ===
/**
 * The save store (src/lib/server/save-manager.ts): one save file and a backup
 * directory, modelled as the fields of a `SaveStore`.  A file body is either
 * a parsed JSON document or text that does not parse.  The clock is the
 * parameter `now`, read once per operation.
 */
module SaveManager {
  import opened Types
  import opened Text
  import opened SaveJson

  const MaxBackups: nat := 3

  /**
   * The error an action answers with when the save file parses but is not a
   * save (the source would fail with an uncaught exception, a 500).
   */
  const UnreadableSave := "Save file is unreadable"

  datatype FileBody = Document(json: Json) | Unparseable(raw: string)

  /**
   * What `loadSave` hands its caller: a save, or a document that parsed but
   * is not a save in every detail (the source would hand it on unchecked).
   */
  datatype LoadResult = Loaded(save: SaveData) | Malformed(doc: Json)

  datatype ImportResult = Imported(save: Json) | ImportFailed(error: string)

  /** `createDefaultSave`: a fresh game begun at `now`. */
  function CreateDefaultSave(settings: SettingsConfig, now: Timestamp): (d: SaveData)
    ensures d.version == 1 && d.exportedAt == now
    ensures d.gameState.coins == settings.startingCoins
    ensures d.gameState.lifetimeCoins == 0 && d.gameState.clientsSeen == 0
    ensures d.gameState.lastIdleTick == now && d.gameState.createdAt == now
    ensures d.habits == [] && d.completions == [] && d.purchasedUpgrades == []
    ensures d.claimedStreakRewards == map[]
  {
    SaveData(1, now, GameState(settings.startingCoins, 0, 0, now, now), [], [], [], map[])
  }

  // ---------------------------------------------------------------------------
  // Backup file names and their rotation
  // ---------------------------------------------------------------------------

  /** The names `rotateBackups` lists: `save-*.json`. */
  predicate IsBackupName(name: string) {
    StartsWith(name, "save-") && EndsWith(name, ".json")
  }

  /** The name a backup taken at `ts` receives. */
  function BackupName(ts: Timestamp): (name: string)
    ensures IsBackupName(name)
  {
    var name := "save-" + IntToString(ts) + ".json";
    assert name[..5] == "save-";
    assert name[|name| - 5..] == ".json";
    name
  }

  /** Backups taken at different times have different names. */
  lemma BackupNameInjective(a: Timestamp, b: Timestamp)
    requires BackupName(a) == BackupName(b)
    ensures a == b
  {
    var na, nb := BackupName(a), BackupName(b);
    assert |IntToString(a)| == |IntToString(b)|;
    assert IntToString(a) == na[5..|na| - 5];
    assert IntToString(b) == nb[5..|nb| - 5];
    IntToStringInjective(a, b);
  }

  /** The backup files among the directory entries. */
  function BackupListing(dir: map<string, FileBody>): (names: set<string>)
    ensures forall n :: n in names <==> n in dir && IsBackupName(n)
  {
    set n | n in dir && IsBackupName(n)
  }

  /** `name` sorts first among `names` (the last after `.sort().reverse()`). */
  ghost predicate IsOldest(name: string, names: set<string>) {
    name in names && forall n :: n in names ==> LexLe(name, n)
  }

  lemma {:induction false} MinExists(names: set<string>)
    requires names != {}
    ensures exists m :: IsOldest(m, names)
    decreases |names|
  {
    var x :| x in names;
    if names != {x} {
      var rest := names - {x};
      MinExists(rest);
      var m :| IsOldest(m, rest);
      LexLeTotal(m, x);
      if LexLe(m, x) {
        assert IsOldest(m, names);
      } else {
        LexLeReflexive(x);
        forall n | n in names ensures LexLe(x, n) {
          if n != x {
            LexLeTransitive(x, m, n);
          }
        }
        assert IsOldest(x, names);
      }
    } else {
      LexLeReflexive(x);
      assert IsOldest(x, names);
    }
  }

  lemma MinUnique(a: string, b: string, names: set<string>)
    requires IsOldest(a, names) && IsOldest(b, names)
    ensures a == b
  {
    LexLeAntisymmetric(a, b);
  }

  ghost function OldestOf(names: set<string>): (m: string)
    requires names != {}
    ensures IsOldest(m, names)
  {
    MinExists(names);
    var m :| IsOldest(m, names);
    m
  }

  /**
   * The backup directory after `rotateBackups`: while three or more backup
   * files remain, the one that sorts first is deleted.
   */
  ghost function Rotate(dir: map<string, FileBody>): (r: map<string, FileBody>)
    ensures r.Keys <= dir.Keys
    ensures |BackupListing(dir)| < MaxBackups ==> r == dir
    decreases |BackupListing(dir)|
  {
    var names := BackupListing(dir);
    if |names| < MaxBackups then dir
    else
      var oldest := OldestOf(names);
      assert BackupListing(dir - {oldest}) == names - {oldest};
      Rotate(dir - {oldest})
  }

  /** Rotation only deletes: what it keeps, it keeps unchanged, and it keeps every other file. */
  lemma {:induction false} RotateOnlyDeletesBackups(dir: map<string, FileBody>)
    ensures forall n :: n in Rotate(dir) ==> n in dir && Rotate(dir)[n] == dir[n]
    ensures forall n :: n in dir && !IsBackupName(n) ==> n in Rotate(dir)
    decreases |BackupListing(dir)|
  {
    var names := BackupListing(dir);
    if |names| >= MaxBackups {
      var oldest := OldestOf(names);
      assert BackupListing(dir - {oldest}) == names - {oldest};
      RotateOnlyDeletesBackups(dir - {oldest});
    }
  }

  /** Rotation leaves `MaxBackups - 1` backups when it has anything to do, and all of them otherwise. */
  lemma {:induction false} RotateCount(dir: map<string, FileBody>)
    ensures |BackupListing(Rotate(dir))|
            == if |BackupListing(dir)| < MaxBackups then |BackupListing(dir)| else MaxBackups - 1
    decreases |BackupListing(dir)|
  {
    var names := BackupListing(dir);
    if |names| >= MaxBackups {
      var oldest := OldestOf(names);
      assert BackupListing(dir - {oldest}) == names - {oldest};
      RotateCount(dir - {oldest});
    }
  }

  /** Every deleted backup sorts no later than every backup that is kept. */
  lemma {:induction false} RotateDeletesOldest(dir: map<string, FileBody>)
    ensures forall d, k :: d in dir && d !in Rotate(dir) && k in BackupListing(Rotate(dir)) ==> LexLe(d, k)
    decreases |BackupListing(dir)|
  {
    var names := BackupListing(dir);
    if |names| >= MaxBackups {
      var oldest := OldestOf(names);
      var rest := dir - {oldest};
      assert BackupListing(rest) == names - {oldest};
      RotateDeletesOldest(rest);
      RotateOnlyDeletesBackups(rest);
      assert Rotate(dir) == Rotate(rest);
    }
  }

  /** Rotation with the oldest name known in advance: the step `RotateBackups` takes. */
  lemma RotateStep(dir: map<string, FileBody>, oldest: string)
    requires |BackupListing(dir)| >= MaxBackups
    requires IsOldest(oldest, BackupListing(dir))
    ensures Rotate(dir) == Rotate(dir - {oldest})
  {
    MinUnique(oldest, OldestOf(BackupListing(dir)), BackupListing(dir));
  }

  /**
   * The backup directory after a write: when a backup is asked for and a save
   * file exists, the directory is rotated and the previous file copied in.
   */
  ghost function BackupsAfterWrite(dir: map<string, FileBody>, previous: Option<FileBody>,
                                   backup: bool, now: Timestamp): map<string, FileBody>
  {
    if backup && previous.Some? then Rotate(dir)[BackupName(now) := previous.value] else dir
  }

  /**
   * After a write that takes a backup, the directory holds the previous save
   * under the new name and at most `MaxBackups` backups; a write without one
   * leaves the directory as it was.
   */
  lemma BackupBoundAfterWrite(dir: map<string, FileBody>, previous: Option<FileBody>,
                              backup: bool, now: Timestamp)
    ensures backup && previous.Some? ==>
              && BackupsAfterWrite(dir, previous, backup, now)[BackupName(now)] == previous.value
              && |BackupListing(BackupsAfterWrite(dir, previous, backup, now))| <= MaxBackups
    ensures !(backup && previous.Some?) ==> BackupsAfterWrite(dir, previous, backup, now) == dir
  {
    if backup && previous.Some? {
      RotateCount(dir);
      var r := Rotate(dir);
      var after := BackupsAfterWrite(dir, previous, backup, now);
      assert BackupListing(after) <= BackupListing(r) + {BackupName(now)};
      assert |BackupListing(r) + {BackupName(now)}| <= |BackupListing(r)| + 1;
      SubsetCard(BackupListing(after), BackupListing(r) + {BackupName(now)});
    }
  }

  /**
   * With a fresh backup name, a write that takes a backup leaves exactly one
   * more backup than rotation kept: so from two backups on, exactly three.
   */
  lemma BackupCountAfterWrite(dir: map<string, FileBody>, previous: Option<FileBody>, now: Timestamp)
    requires previous.Some? && BackupName(now) !in dir
    ensures |BackupListing(BackupsAfterWrite(dir, previous, true, now))|
            == (if |BackupListing(dir)| < MaxBackups then |BackupListing(dir)| else MaxBackups - 1) + 1
  {
    RotateCount(dir);
    RotateOnlyDeletesBackups(dir);
    var r := Rotate(dir);
    assert BackupName(now) !in BackupListing(r);
    assert BackupListing(BackupsAfterWrite(dir, previous, true, now)) == BackupListing(r) + {BackupName(now)};
  }

  lemma SubsetCard(a: set<string>, b: set<string>)
    requires a <= b
    ensures |a| <= |b|
  {
    assert b == a + (b - a);
  }

  /** `oldest` is a backup name that sorts first: the end of the reversed sorted listing. */
  method Oldest(names: set<string>) returns (oldest: string)
    requires names != {}
    ensures oldest in names
    ensures forall n :: n in names ==> LexLe(oldest, n)
  {
    oldest :| oldest in names;
    var rest := names - {oldest};
    LexLeReflexive(oldest);
    while rest != {}
      invariant rest <= names && oldest in names && oldest !in rest
      invariant forall n :: n in names && n !in rest ==> LexLe(oldest, n)
      decreases |rest|
    {
      var n :| n in rest;
      if !LexLe(oldest, n) {
        LexLeTotal(oldest, n);
        LexLeReflexive(n);
        forall m | m in names && m !in rest
          ensures LexLe(n, m)
        {
          LexLeTransitive(n, oldest, m);
        }
        oldest := n;
      }
      rest := rest - {n};
    }
  }

  /** The document `writeSave` stores: the given one with `exportedAt` refreshed. */
  function Stamp(doc: Json, now: Timestamp): (r: Json)
    requires doc.JObj?
    ensures r.JObj? && r.fields.Keys == doc.fields.Keys + {"exportedAt"}
    ensures TimeProp(r, "exportedAt") == Some(now)
    ensures forall k :: k in doc.fields && k != "exportedAt" ==> r.fields[k] == doc.fields[k]
  {
    ParseIntRoundTrip(now);
    JObj(doc.fields["exportedAt" := TimeJson(now)])
  }

  /** Stamping the document of a save is the document of the save with the new time. */
  lemma StampEncode(s: SaveData, now: Timestamp)
    ensures Stamp(EncodeSave(s), now) == EncodeSave(s.(exportedAt := now))
  {
    var stamped := Stamp(EncodeSave(s), now).fields;
    var encoded := EncodeSave(s.(exportedAt := now)).fields;
    assert stamped.Keys == encoded.Keys;
    forall k | k in stamped
      ensures stamped[k] == encoded[k]
    {
    }
  }

  /** A stamped document still passes the shallow check, and denotes the same save but for the time. */
  lemma StampKeepsValid(doc: Json, now: Timestamp)
    requires ValidateSave(doc)
    ensures ValidateSave(Stamp(doc, now))
    ensures DecodeSave(doc).Some? ==> DecodeSave(Stamp(doc, now)) == Some(DecodeSave(doc).value.(exportedAt := now))
  {
    var r := Stamp(doc, now);
    assert IntProp(r, "version") == IntProp(doc, "version");
    assert Prop(r, "gameState") == Prop(doc, "gameState");
    assert ArrayProp(r, "habits") == ArrayProp(doc, "habits");
    assert ArrayProp(r, "completions") == ArrayProp(doc, "completions");
    assert ArrayProp(r, "purchasedUpgrades") == ArrayProp(doc, "purchasedUpgrades");
    assert Prop(r, "claimedStreakRewards") == Prop(doc, "claimedStreakRewards");
  }

  /** What `loadSave` returns for a given save file. */
  function LoadOutcome(file: Option<FileBody>, settings: SettingsConfig, now: Timestamp): (r: LoadResult)
    ensures file.None? || file.value.Unparseable? ==> r == Loaded(CreateDefaultSave(settings, now))
    ensures file.Some? && file.value.Document? ==>
              (r.Loaded? <==> DecodeSave(file.value.json).Some?)
              && (r.Loaded? ==> Some(r.save) == DecodeSave(file.value.json))
              && (r.Malformed? ==> r.doc == file.value.json)
  {
    match file
    case Some(Document(doc)) =>
      (match DecodeSave(doc) case Some(s) => Loaded(s) case None => Malformed(doc))
    case _ => Loaded(CreateDefaultSave(settings, now))
  }

  /** The save file after `loadSave`: a missing or unparseable one is replaced by the default. */
  function FileAfterLoad(file: Option<FileBody>, settings: SettingsConfig, now: Timestamp): (r: Option<FileBody>)
    ensures file.Some? && file.value.Document? ==> r == file
    ensures file.None? || file.value.Unparseable? ==>
              r == Some(Document(EncodeSave(CreateDefaultSave(settings, now))))
  {
    if file.Some? && file.value.Document? then file
    else Some(Document(EncodeSave(CreateDefaultSave(settings, now))))
  }

  /** Whatever `loadSave` does, afterwards the save file holds a parsed document. */
  lemma LoadLeavesDocument(file: Option<FileBody>, settings: SettingsConfig, now: Timestamp)
    ensures FileAfterLoad(file, settings, now).Some?
    ensures FileAfterLoad(file, settings, now).value.Document?
    ensures LoadOutcome(file, settings, now).Loaded? ==>
              DecodeSave(FileAfterLoad(file, settings, now).value.json)
              == Some(LoadOutcome(file, settings, now).save)
  {
    if file.None? || file.value.Unparseable? {
      SaveRoundTrip(CreateDefaultSave(settings, now));
    }
  }

  /** A save written by `writeSave` loads back as itself, carrying the time of the write. */
  lemma WrittenSaveLoads(s: SaveData, settings: SettingsConfig, now: Timestamp, later: Timestamp)
    ensures LoadOutcome(Some(Document(EncodeSave(s.(exportedAt := now)))), settings, later)
            == Loaded(s.(exportedAt := now))
  {
    SaveRoundTrip(s.(exportedAt := now));
  }

  class SaveStore {
    /** `save.json`, when it exists. */
    var saveFile: Option<FileBody>
    /** The backup directory: file name to contents. */
    var backups: map<string, FileBody>

    /** An empty data directory. */
    constructor ()
      ensures saveFile == None && backups == map[]
    {
      saveFile := None;
      backups := map[];
    }

    /** The store as `loadSave` leaves it, from a save file `file0` and directory `backups0`. */
    ghost predicate AfterLoad(file0: Option<FileBody>, backups0: map<string, FileBody>,
                              settings: SettingsConfig, now: Timestamp)
      reads this
    {
      saveFile == FileAfterLoad(file0, settings, now) && backups == backups0
    }

    /** The store after `loadSave` and then `writeSave(s)` with a backup. */
    ghost predicate AfterLoadAndWrite(file0: Option<FileBody>, backups0: map<string, FileBody>,
                                      settings: SettingsConfig, now: Timestamp, s: SaveData)
      reads this
    {
      && saveFile == Some(Document(EncodeSave(s.(exportedAt := now))))
      && backups == BackupsAfterWrite(backups0, FileAfterLoad(file0, settings, now), true, now)
    }

    /**
     * How an action that loads the save, applies `step` and writes the result
     * back leaves the store and what it answers: on a failed step, only the
     * load happened.
     */
    ghost predicate Settled<T>(file0: Option<FileBody>, backups0: map<string, FileBody>,
                               settings: SettingsConfig, now: Timestamp,
                               step: Outcome<Applied<T>>, r: Outcome<T>)
      reads this
    {
      match step
      case Failure(status, error) => r == Failure(status, error) && AfterLoad(file0, backups0, settings, now)
      case Success(applied) => r == Success(applied.reply) && AfterLoadAndWrite(file0, backups0, settings, now, applied.save)
    }

    /** `rotateBackups`: deletes the first-sorting backup while three or more remain. */
    method RotateBackups()
      modifies this
      ensures backups == Rotate(old(backups)) && saveFile == old(saveFile)
    {
      var names := BackupListing(backups);
      while |names| >= MaxBackups
        invariant names == BackupListing(backups)
        invariant Rotate(backups) == Rotate(old(backups))
        invariant saveFile == old(saveFile)
        decreases |names|
      {
        var oldest := Oldest(names);
        RotateStep(backups, oldest);
        backups := backups - {oldest};
        names := names - {oldest};
      }
    }

    /** Copies the current save file into a fresh backup after rotating (the first half of `writeSave`). */
    method BackUp(now: Timestamp)
      requires saveFile.Some?
      modifies this
      ensures saveFile == old(saveFile)
      ensures backups == BackupsAfterWrite(old(backups), old(saveFile), true, now)
    {
      RotateBackups();
      backups := backups[BackupName(now) := saveFile.value];
    }

    /** `writeSave(data, backup)`: optional backup, then the document with `exportedAt` refreshed. */
    method WriteSave(doc: Json, backup: bool, now: Timestamp)
      requires doc.JObj?
      modifies this
      ensures saveFile == Some(Document(Stamp(doc, now)))
      ensures backups == BackupsAfterWrite(old(backups), old(saveFile), backup, now)
    {
      if backup && saveFile.Some? {
        BackUp(now);
      }
      saveFile := Some(Document(Stamp(doc, now)));
    }

    /** `writeSave(save)` for a typed save, with a backup. */
    method WriteSaveData(save: SaveData, now: Timestamp)
      modifies this
      ensures saveFile == Some(Document(EncodeSave(save.(exportedAt := now))))
      ensures backups == BackupsAfterWrite(old(backups), old(saveFile), true, now)
    {
      StampEncode(save, now);
      WriteSave(EncodeSave(save), true, now);
    }

    /** `loadSave`: the stored save, or a default written in place of a missing or unparseable file. */
    method LoadSave(settings: SettingsConfig, now: Timestamp) returns (r: LoadResult)
      modifies this
      ensures r == LoadOutcome(old(saveFile), settings, now)
      ensures AfterLoad(old(saveFile), old(backups), settings, now)
    {
      match saveFile
      case Some(Document(doc)) =>
        var decoded := DecodeSave(doc);
        if decoded.Some? {
          r := Loaded(decoded.value);
        } else {
          r := Malformed(doc);
        }
      case _ =>
        var d := CreateDefaultSave(settings, now);
        StampEncode(d, now);
        WriteSave(EncodeSave(d), false, now);
        r := Loaded(d);
    }

    /** `resetSave`: backs up an existing save once, then writes the default without a backup. */
    method ResetSave(settings: SettingsConfig, now: Timestamp) returns (d: SaveData)
      modifies this
      ensures d == CreateDefaultSave(settings, now)
      ensures saveFile == Some(Document(EncodeSave(d)))
      ensures backups == BackupsAfterWrite(old(backups), old(saveFile), true, now)
    {
      if saveFile.Some? {
        BackUp(now);
      }
      d := CreateDefaultSave(settings, now);
      StampEncode(d, now);
      WriteSave(EncodeSave(d), false, now);
    }

    /** `importSave`: a document that fails the shallow check is refused; any other replaces the save. */
    method ImportSave(data: Json, now: Timestamp) returns (r: ImportResult)
      modifies this
      ensures r.Imported? <==> ValidateSave(data)
      ensures r.ImportFailed? ==> r.error == "Invalid save file format"
      ensures r.ImportFailed? ==> saveFile == old(saveFile) && backups == old(backups)
      ensures r.Imported? ==> data.JObj? && r.save == Stamp(data, now)
      ensures r.Imported? ==> saveFile == Some(Document(r.save))
      ensures r.Imported? ==> backups == BackupsAfterWrite(old(backups), old(saveFile), true, now)
    {
      if !ValidateSave(data) {
        return ImportFailed("Invalid save file format");
      }
      WriteSave(data, true, now);
      r := Imported(Stamp(data, now));
    }
  }
}

=== FILE: settings.dfy ===
/**
 * The settings page (src/routes/settings/+page.server.ts): the summary it
 * shows, importing a save file and resetting the save.
 */
module SettingsPage {
  import opened Types
  import opened Text
  import opened SaveJson
  import opened SaveManager
  import opened HabitsPage

  // ---------------------------------------------------------------------------
  // load
  // ---------------------------------------------------------------------------

  /**
   * Days playing: whole days since the save was created, rounded down, plus
   * one, so the first day counts as day 1.
   */
  function DaysPlaying(createdAt: Timestamp, now: Timestamp): (d: int)
    ensures (d - 1) * MsPerDay <= now - createdAt < d * MsPerDay
  {
    (now - createdAt) / MsPerDay + 1
  }

  /** The count starts at 1 on the day of creation and grows by one a day. */
  lemma DaysPlayingCounts(createdAt: Timestamp, now: Timestamp)
    ensures DaysPlaying(createdAt, createdAt) == 1
    ensures now >= createdAt ==> DaysPlaying(createdAt, now) >= 1
    ensures DaysPlaying(createdAt, now + MsPerDay) == DaysPlaying(createdAt, now) + 1
  {
    var d := DaysPlaying(createdAt, now);
    var e := DaysPlaying(createdAt, now + MsPerDay);
    assert (e - 1) * MsPerDay <= now - createdAt + MsPerDay < e * MsPerDay;
    assert (e - 2) * MsPerDay <= now - createdAt < (e - 1) * MsPerDay;
  }

  /** The best longest-streak over the habits, 0 when there are none. */
  function BestStreak(habits: seq<Habit>): (best: int)
    ensures best >= 0
    ensures forall i :: 0 <= i < |habits| ==> habits[i].longestStreak <= best
    ensures best == 0 || exists i :: 0 <= i < |habits| && habits[i].longestStreak == best
    decreases |habits|
  {
    if habits == [] then 0
    else
      var prefix := BestStreak(habits[..|habits| - 1]);
      var last := habits[|habits| - 1].longestStreak;
      if prefix > last then prefix else last
  }

  datatype SettingsView = SettingsView(
    coins: int,
    lifetimeCoins: int,
    clientsSeen: int,
    habitsCount: int,
    completionsCount: int,
    upgradesCount: int,
    daysPlaying: int,
    bestStreak: int,
    createdAt: Timestamp)

  /** The settings page's `load`: counts and totals of the loaded save. */
  method SettingsLoad(store: SaveStore, settings: SettingsConfig, now: Timestamp)
    returns (r: Outcome<SettingsView>)
    modifies store
    ensures store.AfterLoad(old(store.saveFile), old(store.backups), settings, now)
    ensures match LoadOutcome(old(store.saveFile), settings, now)
            case Malformed(_) => r == Failure(500, UnreadableSave)
            case Loaded(s) =>
              r == Success(SettingsView(s.gameState.coins, s.gameState.lifetimeCoins, s.gameState.clientsSeen,
                                        |s.habits|, |s.completions|, |s.purchasedUpgrades|,
                                        DaysPlaying(s.gameState.createdAt, now), BestStreak(s.habits),
                                        s.gameState.createdAt))
  {
    var loaded := store.LoadSave(settings, now);
    if loaded.Malformed? {
      return Failure(500, UnreadableSave);
    }
    var save := loaded.save;
    var daysPlaying := DaysPlaying(save.gameState.createdAt, now);
    var totalCompletions := |save.completions|;
    var bestStreak := BestStreak(save.habits);
    r := Success(SettingsView(save.gameState.coins, save.gameState.lifetimeCoins, save.gameState.clientsSeen,
                              |save.habits|, totalCompletions, |save.purchasedUpgrades|,
                              daysPlaying, bestStreak, save.gameState.createdAt));
  }

  /** A freshly reset save shows day 1, no streak and the starting balance. */
  lemma FreshSaveSummary(settings: SettingsConfig, now: Timestamp)
    ensures var d := CreateDefaultSave(settings, now);
            && DaysPlaying(d.gameState.createdAt, now) == 1
            && BestStreak(d.habits) == 0
            && d.gameState.coins == settings.startingCoins
  {
    DaysPlayingCounts(now, now);
  }

  // ---------------------------------------------------------------------------
  // import
  // ---------------------------------------------------------------------------

  /**
   * An uploaded file: its name, its size in bytes, and what `JSON.parse`
   * makes of its text (None where it throws).
   */
  datatype Upload = Upload(name: string, size: int, parsed: Option<Json>)

  const ImportedMessage := "Save imported successfully! Your progress has been restored."
  const NoFileError := "No file uploaded"
  const NotJsonFileError := "File must be a .json file"
  const InvalidFormatError := "Invalid save file format. The file may be corrupted or from an incompatible version."
  const ParseError := "Failed to parse file. Please ensure it is a valid JSON file."

  /** The checks `import` makes before touching the store, in order. */
  function CheckUpload(file: Option<Upload>): (r: Outcome<Json>)
    ensures r.Success? <==>
              file.Some? && file.value.size != 0 && EndsWith(file.value.name, ".json")
              && file.value.parsed.Some? && ValidateSave(file.value.parsed.value)
    ensures r.Success? ==> r.value == file.value.parsed.value
    ensures r.Failure? ==> r.status == 400
    ensures r == Failure(400, NoFileError) <==> file.None? || file.value.size == 0
  {
    if file.None? || file.value.size == 0 then Failure(400, NoFileError)
    else if !EndsWith(file.value.name, ".json") then Failure(400, NotJsonFileError)
    else if file.value.parsed.None? then Failure(400, ParseError)
    else if !ValidateSave(file.value.parsed.value) then Failure(400, InvalidFormatError)
    else Success(file.value.parsed.value)
  }

  /**
   * `import`: a refused upload leaves the store alone; an accepted one
   * replaces the save (stamped with the time), backing up the old one.
   */
  method ImportAction(store: SaveStore, file: Option<Upload>, now: Timestamp) returns (r: Outcome<string>)
    modifies store
    ensures CheckUpload(file).Failure? ==>
              r == Failure(400, CheckUpload(file).error)
              && store.saveFile == old(store.saveFile) && store.backups == old(store.backups)
    ensures CheckUpload(file).Success? ==>
              && r == Success(ImportedMessage)
              && store.saveFile == Some(Document(Stamp(CheckUpload(file).value, now)))
              && store.backups == BackupsAfterWrite(old(store.backups), old(store.saveFile), true, now)
  {
    if file.None? || file.value.size == 0 {
      return Failure(400, NoFileError);
    }
    if !EndsWith(file.value.name, ".json") {
      return Failure(400, NotJsonFileError);
    }
    if file.value.parsed.None? {
      return Failure(400, ParseError);
    }
    var data := file.value.parsed.value;
    if !ValidateSave(data) {
      return Failure(400, InvalidFormatError);
    }
    var result := store.ImportSave(data, now);
    assert result.Imported?;
    r := Success(ImportedMessage);
  }

  /** After importing a document that decodes to a save, loading gives that save with the time of the import. */
  lemma ImportThenLoad(data: Json, settings: SettingsConfig, now: Timestamp, later: Timestamp)
    requires ValidateSave(data)
    requires DecodeSave(data).Some?
    ensures LoadOutcome(Some(Document(Stamp(data, now))), settings, later)
            == Loaded(DecodeSave(data).value.(exportedAt := now))
  {
    StampKeepsValid(data, now);
  }

  // ---------------------------------------------------------------------------
  // reset
  // ---------------------------------------------------------------------------

  const ResetConfirmation := "RESET"
  const ResetMessage := "Save reset successfully. Your journey begins anew!"
  const ConfirmError := "Please type \"RESET\" to confirm"

  /**
   * `reset`: anything but the exact word RESET is refused and changes
   * nothing; otherwise the save is backed up and replaced by the default.
   */
  method ResetAction(store: SaveStore, confirmation: Option<string>, settings: SettingsConfig, now: Timestamp)
    returns (r: Outcome<string>)
    modifies store
    ensures r.Success? <==> confirmation == Some(ResetConfirmation)
    ensures r.Failure? ==>
              r == Failure(400, ConfirmError)
              && store.saveFile == old(store.saveFile) && store.backups == old(store.backups)
    ensures r.Success? ==>
              && r.value == ResetMessage
              && store.saveFile == Some(Document(EncodeSave(CreateDefaultSave(settings, now))))
              && store.backups == BackupsAfterWrite(old(store.backups), old(store.saveFile), true, now)
  {
    if confirmation != Some(ResetConfirmation) {
      return Failure(400, ConfirmError);
    }
    var _ := store.ResetSave(settings, now);
    r := Success(ResetMessage);
  }

  /** After a reset, loading gives the default save, whatever was there before. */
  lemma ResetThenLoad(settings: SettingsConfig, now: Timestamp, later: Timestamp)
    ensures LoadOutcome(Some(Document(EncodeSave(CreateDefaultSave(settings, now)))), settings, later)
            == Loaded(CreateDefaultSave(settings, now))
  {
    WrittenSaveLoads(CreateDefaultSave(settings, now), settings, now, later);
  }
}

=== FILE: shop.dfy ===
/**
 * The shop (src/routes/shop/+page.server.ts): buying an upgrade from the
 * catalog with coins.  The key is checked against the catalog before the
 * save is loaded; ownership and the balance are checked on the loaded save.
 */
module ShopPage {
  import opened Types
  import opened Lists
  import opened Catalog
  import opened SaveJson
  import opened SaveManager

  /** What a successful purchase answers. */
  datatype PurchaseReply = PurchaseReply(upgrade: string, newBalance: int)

  /** The extra fields of the "Not enough coins" refusal. */
  datatype Shortfall = Shortfall(required: int, available: int)

  /**
   * The checks made before loading: a missing or empty key is a 400, a key
   * the catalog does not know a 404; otherwise the catalog entry.
   */
  function CheckKey(key: Option<string>, catalog: seq<Upgrade>): (r: Outcome<Upgrade>)
    ensures r == Failure(400, "Invalid upgrade key") <==> key.None? || key.value == []
    ensures r == Failure(404, "Upgrade not found") <==>
              key.Some? && key.value != [] && forall j :: 0 <= j < |catalog| ==> catalog[j].key != key.value
    ensures r.Success? ==> key.Some? && r.value.key == key.value && r.value in catalog
    ensures key.Some? && key.value != [] && FindUpgrade(catalog, key.value).Some? ==>
              r == Success(FindUpgrade(catalog, key.value).value)
  {
    if key.None? || key.value == [] then Failure(400, "Invalid upgrade key")
    else match FindUpgrade(catalog, key.value)
      case None => Failure(404, "Upgrade not found")
      case Some(u) => Success(u)
  }

  /** The purchase on the loaded save: refused when owned or unaffordable, else pay and record. */
  function Purchase(save: SaveData, upgrade: Upgrade): (r: Outcome<Applied<PurchaseReply>>)
    ensures r.Failure? ==> r.status == 400
    ensures r.Success? ==>
              && r.value.save.gameState.coins >= 0
              && r.value.save.gameState.coins + upgrade.cost == save.gameState.coins
              && r.value.reply == PurchaseReply(upgrade.key, r.value.save.gameState.coins)
              && upgrade.key in r.value.save.purchasedUpgrades
  {
    if upgrade.key in save.purchasedUpgrades then Failure(400, "Upgrade already owned")
    else if save.gameState.coins < upgrade.cost then Failure(400, "Not enough coins")
    else
      var after := save.(gameState := save.gameState.(coins := save.gameState.coins - upgrade.cost),
                         purchasedUpgrades := save.purchasedUpgrades + [upgrade.key]);
      Success(Applied(after, PurchaseReply(upgrade.key, after.gameState.coins)))
  }

  /**
   * A purchase succeeds exactly when the upgrade is not owned and affordable;
   * it then takes the cost from the balance, appends the key, and changes
   * nothing else (lifetime coins included).
   */
  lemma PurchaseEffect(save: SaveData, upgrade: Upgrade)
    ensures var r := Purchase(save, upgrade);
            && (r == Failure(400, "Upgrade already owned") <==> upgrade.key in save.purchasedUpgrades)
            && (r == Failure(400, "Not enough coins") <==>
                  upgrade.key !in save.purchasedUpgrades && save.gameState.coins < upgrade.cost)
            && (r.Success? <==> upgrade.key !in save.purchasedUpgrades && save.gameState.coins >= upgrade.cost)
            && (r.Success? ==>
                  && r.value.save.gameState == save.gameState.(coins := save.gameState.coins - upgrade.cost)
                  && r.value.save.purchasedUpgrades == save.purchasedUpgrades + [upgrade.key]
                  && r.value.save.habits == save.habits
                  && r.value.save.completions == save.completions
                  && r.value.save.claimedStreakRewards == save.claimedStreakRewards
                  && r.value.save.version == save.version && r.value.save.exportedAt == save.exportedAt
                  && r.value.reply == PurchaseReply(upgrade.key, save.gameState.coins - upgrade.cost))
  {
  }

  /** A purchase never leaves a negative balance, and never lists an upgrade twice. */
  lemma PurchaseKeepsInvariants(save: SaveData, upgrade: Upgrade)
    requires NoDuplicates(save.purchasedUpgrades)
    requires Purchase(save, upgrade).Success?
    ensures Purchase(save, upgrade).value.save.gameState.coins >= 0
    ensures NoDuplicates(Purchase(save, upgrade).value.save.purchasedUpgrades)
  {
    var after := Purchase(save, upgrade).value.save.purchasedUpgrades;
    var n := |save.purchasedUpgrades|;
    forall i, j | 0 <= i < j < |after|
      ensures after[i] != after[j]
    {
      if j == n {
        assert after[i] == save.purchasedUpgrades[i];
      } else {
        assert after[i] == save.purchasedUpgrades[i] && after[j] == save.purchasedUpgrades[j];
      }
    }
  }

  /** Buying the same upgrade again is refused as already owned. */
  lemma SecondPurchaseRefused(save: SaveData, upgrade: Upgrade)
    requires Purchase(save, upgrade).Success?
    ensures Purchase(Purchase(save, upgrade).value.save, upgrade) == Failure(400, "Upgrade already owned")
  {
    var after := Purchase(save, upgrade).value.save;
    assert after.purchasedUpgrades[|save.purchasedUpgrades|] == upgrade.key;
  }

  /** `purchase`: key checks, load, ownership and balance checks, pay, write. */
  method PurchaseAction(store: SaveStore, key: Option<string>, catalog: seq<Upgrade>,
                        settings: SettingsConfig, now: Timestamp)
    returns (r: Outcome<PurchaseReply>, shortfall: Option<Shortfall>)
    modifies store
    ensures CheckKey(key, catalog).Failure? ==>
              r == Failure(CheckKey(key, catalog).status, CheckKey(key, catalog).error) && shortfall.None?
              && store.saveFile == old(store.saveFile) && store.backups == old(store.backups)
    ensures CheckKey(key, catalog).Success? ==>
              match LoadOutcome(old(store.saveFile), settings, now)
              case Malformed(_) =>
                r == Failure(500, UnreadableSave) && shortfall.None?
                && store.AfterLoad(old(store.saveFile), old(store.backups), settings, now)
              case Loaded(s) =>
                var upgrade := CheckKey(key, catalog).value;
                && store.Settled(old(store.saveFile), old(store.backups), settings, now, Purchase(s, upgrade), r)
                && (shortfall.Some? <==> r == Failure(400, "Not enough coins"))
                && (shortfall.Some? ==> shortfall.value == Shortfall(upgrade.cost, s.gameState.coins))
  {
    shortfall := None;
    if key.None? || key.value == [] {
      return Failure(400, "Invalid upgrade key"), None;
    }
    var upgradeKey := key.value;
    var found := FindUpgrade(catalog, upgradeKey);
    if found.None? {
      return Failure(404, "Upgrade not found"), None;
    }
    var upgrade := found.value;

    var loaded := store.LoadSave(settings, now);
    if loaded.Malformed? {
      return Failure(500, UnreadableSave), None;
    }
    var save := loaded.save;
    ghost var step := Purchase(save, upgrade);
    if upgradeKey in save.purchasedUpgrades {
      return Failure(400, "Upgrade already owned"), None;
    }
    if save.gameState.coins < upgrade.cost {
      return Failure(400, "Not enough coins"), Some(Shortfall(upgrade.cost, save.gameState.coins));
    }
    assert step.Success?;
    ghost var expected := step.value.save;
    save := save.(gameState := save.gameState.(coins := save.gameState.coins - upgrade.cost));
    assert save.gameState == expected.gameState;
    save := save.(purchasedUpgrades := save.purchasedUpgrades + [upgradeKey]);
    assert save == expected;
    store.WriteSaveData(save, now);
    r := Success(PurchaseReply(upgradeKey, save.gameState.coins));
  }

  /** What the shop page shows: the catalog, the owned keys and the balance. */
  datatype ShopView = ShopView(upgrades: seq<Upgrade>, purchasedUpgrades: seq<string>, coins: int)

  /** The shop's `load`: reads the save (creating a default one if needed). */
  method ShopLoad(store: SaveStore, catalog: seq<Upgrade>, settings: SettingsConfig, now: Timestamp)
    returns (r: Outcome<ShopView>)
    modifies store
    ensures store.AfterLoad(old(store.saveFile), old(store.backups), settings, now)
    ensures match LoadOutcome(old(store.saveFile), settings, now)
            case Malformed(_) => r == Failure(500, UnreadableSave)
            case Loaded(s) => r == Success(ShopView(catalog, s.purchasedUpgrades, s.gameState.coins))
  {
    var loaded := store.LoadSave(settings, now);
    if loaded.Malformed? {
      return Failure(500, UnreadableSave);
    }
    r := Success(ShopView(catalog, loaded.save.purchasedUpgrades, loaded.save.gameState.coins));
  }
}

=== FILE: stats.dfy ===
/**
 * The statistics page (src/routes/stats/+page.server.ts): the purchased
 * upgrades resolved against the catalog, the three effect totals with their
 * sources, the upgrades grouped by category, the count and the total spent.
 */
module StatsPage {
  import opened Types
  import opened Catalog
  import opened SaveJson
  import opened SaveManager
  import opened IdleCalculator

  /** The purchased keys mapped to catalog entries, unknown keys dropped, order kept. */
  function Resolve(catalog: seq<Upgrade>, keys: seq<string>): (r: seq<Upgrade>)
    ensures |r| <= |keys|
    ensures forall i :: 0 <= i < |r| ==> r[i] in catalog
    decreases |keys|
  {
    if keys == [] then []
    else
      Resolve(catalog, keys[..|keys| - 1])
      + match FindUpgrade(catalog, keys[|keys| - 1])
        case None => []
        case Some(u) => [u]
  }

  /** Nothing is dropped exactly when the catalog knows every purchased key. */
  lemma {:induction false} ResolveKeepsAllKnown(catalog: seq<Upgrade>, keys: seq<string>)
    ensures |Resolve(catalog, keys)| == |keys| <==>
            forall i :: 0 <= i < |keys| ==> FindUpgrade(catalog, keys[i]).Some?
    decreases |keys|
  {
    if keys != [] {
      var prefix := keys[..|keys| - 1];
      ResolveKeepsAllKnown(catalog, prefix);
      assert forall i :: 0 <= i < |prefix| ==> prefix[i] == keys[i];
    }
  }

  /** A key the catalog does not know adds nothing: the resolved list stays as it was. */
  lemma ResolveSkipsUnknown(catalog: seq<Upgrade>, keys: seq<string>, k: string)
    requires FindUpgrade(catalog, k).None?
    ensures Resolve(catalog, keys + [k]) == Resolve(catalog, keys)
  {
    assert (keys + [k])[..|keys|] == keys;
  }

  /** One line of an effect's breakdown: which upgrade gave how much. */
  datatype Source = Source(name: string, value: real)

  /** An effect's display: a base, the bonus on top, and where the bonus comes from. */
  datatype EffectStat = EffectStat(base: real, bonus: real, sources: seq<Source>)

  datatype Stats = Stats(clientCapacity: EffectStat, satisfactionPercent: EffectStat, incomeMultiplier: EffectStat)

  /** The sum of one effect over the upgrades. */
  function FieldSum(ups: seq<Upgrade>, e: Effect): real
    decreases |ups|
  {
    if ups == [] then 0.0 else FieldSum(ups[..|ups| - 1], e) + EffectOf(ups[|ups| - 1], e)
  }

  /** The upgrades with a non-zero value of the effect, as sources, in order. */
  function Sources(ups: seq<Upgrade>, e: Effect): (r: seq<Source>)
    ensures |r| <= |ups|
    ensures forall i :: 0 <= i < |r| ==> r[i].value != 0.0
    decreases |ups|
  {
    if ups == [] then []
    else
      var u := ups[|ups| - 1];
      Sources(ups[..|ups| - 1], e) + if EffectOf(u, e) != 0.0 then [Source(u.name, EffectOf(u, e))] else []
  }

  /** One upgrade gives one source when its value is non-zero, and none otherwise. */
  lemma SourcesOfOne(u: Upgrade, e: Effect)
    ensures Sources([u], e) == if EffectOf(u, e) != 0.0 then [Source(u.name, EffectOf(u, e))] else []
  {
    assert [u][..0] == [];
  }

  /** The breakdown of a concatenation is the breakdowns one after the other. */
  lemma {:induction false} SourcesAppend(a: seq<Upgrade>, b: seq<Upgrade>, e: Effect)
    ensures Sources(a + b, e) == Sources(a, e) + Sources(b, e)
    decreases |b|
  {
    if b == [] {
      assert a + b == a;
    } else {
      var prefix := b[..|b| - 1];
      SourcesAppend(a, prefix, e);
      assert (a + b)[..|a + b| - 1] == a + prefix;
      assert (a + b)[|a + b| - 1] == b[|b| - 1];
    }
  }

  /** The sum of the values of the sources. */
  function SourceTotal(sources: seq<Source>): real
    decreases |sources|
  {
    if sources == [] then 0.0 else SourceTotal(sources[..|sources| - 1]) + sources[|sources| - 1].value
  }

  /** The display of one effect over the upgrades, from the given base. */
  function StatOf(ups: seq<Upgrade>, e: Effect, base: real): EffectStat {
    EffectStat(base, FieldSum(ups, e), Sources(ups, e))
  }

  /** The breakdown accounts for the whole bonus: the skipped zero values add nothing. */
  lemma {:induction false} SourcesSumToBonus(ups: seq<Upgrade>, e: Effect)
    ensures SourceTotal(Sources(ups, e)) == FieldSum(ups, e)
    decreases |ups|
  {
    if ups != [] {
      var prefix := ups[..|ups| - 1];
      var u := ups[|ups| - 1];
      SourcesSumToBonus(prefix, e);
      if EffectOf(u, e) != 0.0 {
        var s := Sources(ups, e);
        assert s[..|s| - 1] == Sources(prefix, e);
      } else {
        assert Sources(ups, e) == Sources(prefix, e);
      }
    }
  }

  /**
   * The bonus the page shows is the same sum the idle engine pays on: the
   * effect totalled over the purchased keys, unknown keys counting zero.
   */
  lemma {:induction false} BonusMatchesIdleEngine(catalog: seq<Upgrade>, keys: seq<string>, e: Effect)
    ensures FieldSum(Resolve(catalog, keys), e) == EffectTotal(catalog, keys, e)
    decreases |keys|
  {
    if keys != [] {
      var prefix := keys[..|keys| - 1];
      BonusMatchesIdleEngine(catalog, prefix, e);
      var r := Resolve(catalog, keys);
      match FindUpgrade(catalog, keys[|keys| - 1])
      case None =>
        assert r == Resolve(catalog, prefix);
      case Some(u) =>
        assert r[..|r| - 1] == Resolve(catalog, prefix);
    }
  }

  /** The stats loop: one pass over the resolved upgrades, adding each non-zero effect. */
  method SumEffects(purchased: seq<Upgrade>) returns (stats: Stats)
    ensures stats == Stats(StatOf(purchased, ClientCapacity, 5.0),
                           StatOf(purchased, SatisfactionPercent, 0.0),
                           StatOf(purchased, IncomeMultiplier, 1.0))
  {
    stats := Stats(EffectStat(5.0, 0.0, []), EffectStat(0.0, 0.0, []), EffectStat(1.0, 0.0, []));
    for i := 0 to |purchased|
      invariant stats.clientCapacity == StatOf(purchased[..i], ClientCapacity, 5.0)
      invariant stats.satisfactionPercent == StatOf(purchased[..i], SatisfactionPercent, 0.0)
      invariant stats.incomeMultiplier == StatOf(purchased[..i], IncomeMultiplier, 1.0)
    {
      assert purchased[..i + 1][..i] == purchased[..i];
      var upgrade := purchased[i];
      var cc := stats.clientCapacity;
      if upgrade.effects.clientCapacity != 0.0 {
        cc := cc.(bonus := cc.bonus + upgrade.effects.clientCapacity,
                  sources := cc.sources + [Source(upgrade.name, upgrade.effects.clientCapacity)]);
      }
      var sp := stats.satisfactionPercent;
      if upgrade.effects.satisfactionPercent != 0.0 {
        sp := sp.(bonus := sp.bonus + upgrade.effects.satisfactionPercent,
                  sources := sp.sources + [Source(upgrade.name, upgrade.effects.satisfactionPercent)]);
      }
      var im := stats.incomeMultiplier;
      if upgrade.effects.incomeMultiplier != 0.0 {
        im := im.(bonus := im.bonus + upgrade.effects.incomeMultiplier,
                  sources := im.sources + [Source(upgrade.name, upgrade.effects.incomeMultiplier)]);
      }
      stats := Stats(cc, sp, im);
    }
    assert purchased[..|purchased|] == purchased;
  }

  /** The upgrades of one category, in order. */
  function InCategory(ups: seq<Upgrade>, c: Category): (r: seq<Upgrade>)
    ensures |r| <= |ups|
    ensures forall i :: 0 <= i < |r| ==> r[i].category == c && r[i] in ups
    ensures forall i :: 0 <= i < |ups| && ups[i].category == c ==> ups[i] in r
    decreases |ups|
  {
    if ups == [] then []
    else
      var last := ups[|ups| - 1];
      assert ups == ups[..|ups| - 1] + [last];
      InCategory(ups[..|ups| - 1], c) + if last.category == c then [last] else []
  }

  /**
   * The filter keeps multiplicity: each upgrade of the category occurs in the
   * group as often as among the upgrades, any other upgrade not at all.
   */
  lemma {:induction false} InCategoryCounts(ups: seq<Upgrade>, c: Category)
    ensures forall x :: multiset(InCategory(ups, c))[x] == if x.category == c then multiset(ups)[x] else 0
    decreases |ups|
  {
    if ups != [] {
      var prefix, last := ups[..|ups| - 1], ups[|ups| - 1];
      InCategoryCounts(prefix, c);
      assert ups == prefix + [last];
      InCategoryLast(ups, c);
    }
  }

  /** One step of the filter: the last upgrade is kept at the end when it is of the category. */
  lemma InCategoryLast(ups: seq<Upgrade>, c: Category)
    requires ups != []
    ensures InCategory(ups, c) == InCategory(ups[..|ups| - 1], c)
                                  + if ups[|ups| - 1].category == c then [ups[|ups| - 1]] else []
  {
  }

  /** Regrouping one step of an append proof: `(l + m) + t` with `m + t` already named. */
  lemma Regroup(whole: seq<Upgrade>, left: seq<Upgrade>, middle: seq<Upgrade>, tail: seq<Upgrade>, right: seq<Upgrade>)
    requires whole == (left + middle) + tail && right == middle + tail
    ensures whole == left + right
  {
  }

  /** The inductive step of `InCategoryAppend`: from `a + prefix` to `a + prefix + [last]`. */
  lemma InCategoryAppendStep(a: seq<Upgrade>, b: seq<Upgrade>, c: Category)
    requires b != []
    requires InCategory(a + b[..|b| - 1], c) == InCategory(a, c) + InCategory(b[..|b| - 1], c)
    ensures InCategory(a + b, c) == InCategory(a, c) + InCategory(b, c)
  {
    var prefix, last := b[..|b| - 1], b[|b| - 1];
    var tail := if last.category == c then [last] else [];
    assert (a + b)[..|a + b| - 1] == a + prefix;
    assert (a + b)[|a + b| - 1] == last;
    InCategoryLast(a + b, c);
    InCategoryLast(b, c);
    Regroup(InCategory(a + b, c), InCategory(a, c), InCategory(prefix, c), tail, InCategory(b, c));
  }

  /** Filtering a concatenation filters each part, in order. */
  lemma {:induction false} InCategoryAppend(a: seq<Upgrade>, b: seq<Upgrade>, c: Category)
    ensures InCategory(a + b, c) == InCategory(a, c) + InCategory(b, c)
    decreases |b|
  {
    if b == [] {
      assert a + b == a;
    } else {
      InCategoryAppend(a, b[..|b| - 1], c);
      InCategoryAppendStep(a, b, c);
    }
  }

  datatype ByCategory = ByCategory(assessment: seq<Upgrade>, tool: seq<Upgrade>, decor: seq<Upgrade>,
                                   staff: seq<Upgrade>, expansion: seq<Upgrade>)

  function GroupByCategory(ups: seq<Upgrade>): (g: ByCategory)
    ensures forall i :: 0 <= i < |g.assessment| ==> g.assessment[i].category == Assessment
    ensures forall i :: 0 <= i < |g.tool| ==> g.tool[i].category == Tool
    ensures forall i :: 0 <= i < |g.decor| ==> g.decor[i].category == Decor
    ensures forall i :: 0 <= i < |g.staff| ==> g.staff[i].category == Staff
    ensures forall i :: 0 <= i < |g.expansion| ==> g.expansion[i].category == Expansion
  {
    ByCategory(InCategory(ups, Assessment), InCategory(ups, Tool), InCategory(ups, Decor),
               InCategory(ups, Staff), InCategory(ups, Expansion))
  }

  /** The five groups partition the upgrades: together they hold each one exactly once. */
  lemma {:induction false} GroupsPartition(ups: seq<Upgrade>)
    ensures var g := GroupByCategory(ups);
            |g.assessment| + |g.tool| + |g.decor| + |g.staff| + |g.expansion| == |ups|
    decreases |ups|
  {
    if ups != [] {
      GroupsPartition(ups[..|ups| - 1]);
      InCategoryLast(ups, Assessment);
      InCategoryLast(ups, Tool);
      InCategoryLast(ups, Decor);
      InCategoryLast(ups, Staff);
      InCategoryLast(ups, Expansion);
    }
  }

  /** `reduce((sum, u) => sum + u.cost, 0)`. */
  function TotalCost(ups: seq<Upgrade>): (total: int)
    ensures (forall i :: 0 <= i < |ups| ==> ups[i].cost >= 0) ==> total >= 0
    decreases |ups|
  {
    if ups == [] then 0 else TotalCost(ups[..|ups| - 1]) + ups[|ups| - 1].cost
  }

  /** Buying a known, unowned upgrade adds its cost to the total spent and one to the count. */
  lemma PurchaseAddsToTotals(catalog: seq<Upgrade>, keys: seq<string>, u: Upgrade)
    requires FindUpgrade(catalog, u.key) == Some(u)
    ensures Resolve(catalog, keys + [u.key]) == Resolve(catalog, keys) + [u]
    ensures TotalCost(Resolve(catalog, keys + [u.key])) == TotalCost(Resolve(catalog, keys)) + u.cost
  {
    assert (keys + [u.key])[..|keys|] == keys;
    var r := Resolve(catalog, keys + [u.key]);
    assert r[..|r| - 1] == Resolve(catalog, keys);
  }

  datatype StatsView = StatsView(stats: Stats, upgradesByCategory: ByCategory, totalUpgrades: int, totalSpent: int)

  /** The stats page's `load`. */
  method StatsLoad(store: SaveStore, catalog: seq<Upgrade>, settings: SettingsConfig, now: Timestamp)
    returns (r: Outcome<StatsView>)
    modifies store
    ensures store.AfterLoad(old(store.saveFile), old(store.backups), settings, now)
    ensures match LoadOutcome(old(store.saveFile), settings, now)
            case Malformed(_) => r == Failure(500, UnreadableSave)
            case Loaded(s) =>
              var p := Resolve(catalog, s.purchasedUpgrades);
              r == Success(StatsView(Stats(StatOf(p, ClientCapacity, 5.0), StatOf(p, SatisfactionPercent, 0.0),
                                           StatOf(p, IncomeMultiplier, 1.0)),
                                     GroupByCategory(p), |p|, TotalCost(p)))
  {
    var loaded := store.LoadSave(settings, now);
    if loaded.Malformed? {
      return Failure(500, UnreadableSave);
    }
    var purchasedUpgrades := Resolve(catalog, loaded.save.purchasedUpgrades);
    var stats := SumEffects(purchasedUpgrades);
    r := Success(StatsView(stats, GroupByCategory(purchasedUpgrades), |purchasedUpgrades|,
                           TotalCost(purchasedUpgrades)));
  }
}

=== FILE: text.dfy ===
/**
 * String operations the source takes from the JavaScript runtime: number
 * formatting and parsing, `startsWith`/`endsWith`, `trim`, and the default
 * ordering of `Array.prototype.sort` on strings.
 */
module Text {
  import opened Types

  // ---------------------------------------------------------------------------
  // Decimal text of integers (`${n}`, `Date.now()` in file names)
  // ---------------------------------------------------------------------------

  predicate IsDigit(c: char) { '0' <= c <= '9' }

  predicate AllDigits(s: string) {
    forall i :: 0 <= i < |s| ==> IsDigit(s[i])
  }

  function DigitChar(d: int): (c: char)
    requires 0 <= d < 10
    ensures IsDigit(c) && c as int - '0' as int == d
  {
    (d + '0' as int) as char
  }

  function DigitValue(c: char): int
    requires IsDigit(c)
  {
    c as int - '0' as int
  }

  /** Decimal digits of `n`, most significant first, without leading zeros. */
  function NatToString(n: nat): (s: string)
    ensures s != [] && AllDigits(s)
    ensures |s| > 1 ==> s[0] != '0'
    decreases n
  {
    if n < 10 then [DigitChar(n)]
    else NatToString(n / 10) + [DigitChar(n % 10)]
  }

  /** The number that a non-empty run of decimal digits denotes. */
  function DigitsValue(s: string): nat
    requires AllDigits(s)
    decreases |s|
  {
    if s == [] then 0
    else DigitsValue(s[..|s| - 1]) * 10 + DigitValue(s[|s| - 1])
  }

  /** How JavaScript renders an integral number as text. */
  function IntToString(n: int): (s: string)
    ensures s != []
  {
    if n < 0 then "-" + NatToString(-n) else NatToString(n)
  }

  /** Reads an optionally signed run of decimal digits. */
  function ParseInt(s: string): (r: Option<int>) {
    if s != [] && s[0] == '-' then
      if |s| > 1 && AllDigits(s[1..]) then Some(-(DigitsValue(s[1..]) as int)) else None
    else if s != [] && AllDigits(s) then Some(DigitsValue(s))
    else None
  }

  lemma {:induction false} DigitsOfNat(n: nat)
    ensures DigitsValue(NatToString(n)) == n
    decreases n
  {
    if n >= 10 {
      var s := NatToString(n);
      assert s[..|s| - 1] == NatToString(n / 10);
      DigitsOfNat(n / 10);
    }
  }

  /** Parsing the text of an integer gives the integer back. */
  lemma ParseIntRoundTrip(n: int)
    ensures ParseInt(IntToString(n)) == Some(n)
  {
    if n < 0 {
      var s := IntToString(n);
      assert s[1..] == NatToString(-n);
      DigitsOfNat(-n);
    } else {
      DigitsOfNat(n);
    }
  }

  /** Distinct integers have distinct texts. */
  lemma IntToStringInjective(a: int, b: int)
    requires IntToString(a) == IntToString(b)
    ensures a == b
  {
    ParseIntRoundTrip(a);
    ParseIntRoundTrip(b);
  }

  // ---------------------------------------------------------------------------
  // startsWith / endsWith
  // ---------------------------------------------------------------------------

  predicate StartsWith(s: string, prefix: string) {
    |prefix| <= |s| && s[..|prefix|] == prefix
  }

  predicate EndsWith(s: string, suffix: string) {
    |suffix| <= |s| && s[|s| - |suffix|..] == suffix
  }

  // ---------------------------------------------------------------------------
  // String.prototype.trim
  // ---------------------------------------------------------------------------

  /** The characters ECMAScript counts as WhiteSpace or LineTerminator. */
  predicate IsWhiteSpace(c: char) {
    var k := c as int;
    k == 0x09 || k == 0x0A || k == 0x0B || k == 0x0C || k == 0x0D || k == 0x20
    || k == 0xA0 || k == 0x1680 || (0x2000 <= k <= 0x200A) || k == 0x2028
    || k == 0x2029 || k == 0x202F || k == 0x205F || k == 0x3000 || k == 0xFEFF
  }

  predicate AllWhiteSpace(s: string) {
    forall i :: 0 <= i < |s| ==> IsWhiteSpace(s[i])
  }

  function TrimStart(s: string): (r: string)
    ensures |r| <= |s| && r == s[|s| - |r|..]
    ensures r == [] || !IsWhiteSpace(r[0])
    ensures AllWhiteSpace(s[..|s| - |r|])
    decreases |s|
  {
    if s != [] && IsWhiteSpace(s[0]) then
      var r := TrimStart(s[1..]);
      assert s[..|s| - |r|] == [s[0]] + s[1..][..|s| - 1 - |r|];
      r
    else s
  }

  function TrimEnd(s: string): (r: string)
    ensures |r| <= |s| && r == s[..|r|]
    ensures r == [] || !IsWhiteSpace(r[|r| - 1])
    ensures AllWhiteSpace(s[|r|..])
    decreases |s|
  {
    if s != [] && IsWhiteSpace(s[|s| - 1]) then
      var r := TrimEnd(s[..|s| - 1]);
      assert s[|r|..] == s[..|s| - 1][|r|..] + [s[|s| - 1]];
      r
    else s
  }

  /** `s.trim()`: what remains between the leading and trailing white space. */
  function Trim(s: string): (r: string)
    ensures r == [] <==> AllWhiteSpace(s)
    ensures r != [] ==> !IsWhiteSpace(r[0]) && !IsWhiteSpace(r[|r| - 1])
  {
    var t := TrimStart(s);
    var r := TrimEnd(t);
    assert r == [] ==> s == s[..|s| - |t|] + t && AllWhiteSpace(t);
    r
  }

  // ---------------------------------------------------------------------------
  // The default order of Array.prototype.sort on strings
  // ---------------------------------------------------------------------------

  /** `a` sorts no later than `b`: character by character, a prefix first. */
  predicate LexLe(a: string, b: string)
    decreases |a|
  {
    a == [] || (b != [] && (a[0] < b[0] || (a[0] == b[0] && LexLe(a[1..], b[1..]))))
  }

  lemma {:induction false} LexLeReflexive(a: string)
    ensures LexLe(a, a)
    decreases |a|
  {
    if a != [] {
      LexLeReflexive(a[1..]);
    }
  }

  lemma {:induction false} LexLeTotal(a: string, b: string)
    ensures LexLe(a, b) || LexLe(b, a)
    decreases |a|
  {
    if a != [] && b != [] && a[0] == b[0] {
      LexLeTotal(a[1..], b[1..]);
    }
  }

  lemma {:induction false} LexLeAntisymmetric(a: string, b: string)
    requires LexLe(a, b) && LexLe(b, a)
    ensures a == b
    decreases |a|
  {
    if a != [] {
      assert b != [] && a[0] == b[0];
      LexLeAntisymmetric(a[1..], b[1..]);
      assert a == [a[0]] + a[1..] && b == [b[0]] + b[1..];
    }
  }

  lemma {:induction false} LexLeTransitive(a: string, b: string, c: string)
    requires LexLe(a, b) && LexLe(b, c)
    ensures LexLe(a, c)
    decreases |a|
  {
    if a != [] && a[0] == b[0] && b[0] == c[0] {
      LexLeTransitive(a[1..], b[1..], c[1..]);
    }
  }
}

=== FILE: types.dfy ===
/**
 * The game's records (src/lib/game/types.ts).
 *
 * Timestamps are integer milliseconds since the epoch; the persisted form
 * renders them as text (see module SaveJson).  Optional effect fields of an
 * upgrade are represented by 0.0 when absent: the source only ever tests them
 * for truthiness, and an absent field and a zero field are both falsy.
 */
module Types {

  datatype Option<+T> = None | Some(value: T) {
    predicate IsFailure() { None? }

    function PropagateFailure<U>(): Option<U>
      requires None?
    {
      None
    }

    function Extract(): T
      requires Some?
    {
      value
    }
  }

  /**
   * What a form action answers: a success payload, or an error message with
   * the HTTP status it is sent with (200 where the action answers
   * `{ success: false, error }` without `fail`).
   */
  datatype Outcome<T> = Success(value: T) | Failure(status: int, error: string)

  /** The save an action leaves behind, with the reply it sends. */
  datatype Applied<T> = Applied(save: SaveData, reply: T)

  /** Milliseconds since the epoch. */
  type Timestamp = int

  datatype Recurrence = Daily | Weekly | OneOff

  datatype Habit = Habit(
    id: string,
    name: string,
    coinReward: int,
    recurrence: Recurrence,
    streak: int,
    longestStreak: int,
    lastCompleted: Option<Timestamp>,
    createdAt: Timestamp)

  datatype Completion = Completion(
    id: string,
    habitId: string,
    completedAt: Timestamp,
    coinsAwarded: int)

  datatype GameState = GameState(
    coins: int,
    lifetimeCoins: int,
    clientsSeen: int,
    lastIdleTick: Timestamp,
    createdAt: Timestamp)

  datatype SaveData = SaveData(
    version: int,
    exportedAt: Timestamp,
    gameState: GameState,
    habits: seq<Habit>,
    completions: seq<Completion>,
    purchasedUpgrades: seq<string>,
    claimedStreakRewards: map<string, seq<int>>)

  datatype UpgradeEffect = UpgradeEffect(
    clientCapacity: real,
    satisfactionPercent: real,
    incomeMultiplier: real)

  datatype Category = Assessment | Tool | Decor | Staff | Expansion

  datatype Position = Position(x: real, y: real)

  datatype Upgrade = Upgrade(
    key: string,
    category: Category,
    name: string,
    description: string,
    cost: int,
    effects: UpgradeEffect,
    sprite: Option<string>,
    position: Option<Position>)

  datatype StreakMilestone = StreakMilestone(days: int, coins: int, message: string)

  datatype IdleSettings = IdleSettings(
    baseClientsPerHour: real,
    maxIdleHours: int,
    baseCoinsPerClient: real)

  datatype HabitSettings = HabitSettings(maxCoinReward: int, defaultRecurrence: Recurrence)

  datatype SettingsConfig = SettingsConfig(
    idleSettings: IdleSettings,
    habitSettings: HabitSettings,
    startingCoins: int)

  datatype IdleRewardResult = IdleRewardResult(
    coins: int,
    clients: int,
    timeElapsedMs: int,
    capped: bool)
}
